=== FILE: README.md ===
# FocusFlow core, modelled in Dafny

FocusFlow is a Pomodoro focus timer. Its core keeps a ledger of focus sessions,
one `{ date: 'YYYY-MM-DD', duration }` record per calendar day. Finishing a work
period appends to that ledger: a session on an existing date adds to that
date's duration. `computeMetrics` derives four figures from the ledger: focus
time today, sessions today, the current streak and the longest streak. The
home screen shows the first three. The longest streak is shown only on the
profile screen, which is not part of this model. This project models that core
and proves what it computes:

- `wrappers.dfy` holds `Option`.
- `digits.dfy` models the pieces of JavaScript text handling the core uses:
  - `toString` on integers;
  - `padStart(width, '0')`;
  - the `%` operator;
  - the `<` order on strings, which the date sort relies on.

  It also defines the model's own reading tools: a digit parser that every
  formatter is checked against, and an `indexOf` that the readers `ParseTotal`
  and `ParseClock` use. The source never calls `indexOf`.
- `calendar.dfy` is the proleptic Gregorian calendar behind `toISOString`.
  Day numbers count from 1970-01-01. `CivilOf` and `DayNumber` are mutually
  inverse, and both preserve order.
- `dates.dfy` models `utils/date.js`:
  - `formatDate` as the date part of `toISOString`, with the parser it must
    agree with;
  - `isSameDay`;
  - `getLastNDates`;
  - `getDayName`.
- `ledger.dfy` models the session store and `utils/storage.js`:
  - `loadSessions`, `saveSessions` and `appendSession` as functions of an
    explicit store state;
  - the merge rule as `Merge`.
- `sorting.dfy` holds the two sorts `computeMetrics` performs, with their
  permutation and uniqueness properties.
- `streaks.dfy` holds the two streak scans, characterised by runs of
  consecutive calendar days present in the ledger.
- `metrics.dfy` gives `computeMetrics` as a reference function (`MetricsOf`).
  The method `ComputeMetrics` follows the source loop by loop and is proved
  equal to that reference. The figures are then related to what they mean:
  today's sum and count, the longest run, and the run ending at the newest day.
- `pomodoro.dfy` models the timer logic of the home screen as a state and a step
  function over events:
  - the period table `[1500, 300, 1500, 900]`;
  - the tick that stops at zero;
  - start/pause and reset;
  - the end of a period, which records a work period and recomputes the metrics.
- `totals.dfy` models `formatTotal`, with a reader for its `<h>h <m>m` / `<m>m`
  text.
- `timer_circle.dfy` models the `MM:SS` text of the timer circle, with a reader
  for it.

Instants are JavaScript time values: integer milliseconds since the epoch.
`formatDate` uses `toISOString`, so the recorded day is the UTC day
`t / 86400000`. The local-time helpers (`isSameDay`, `getDay`,
`getLastNDates`) take the zone as a fixed offset in milliseconds. Records hold
the day number rather than its text. `Dates.IsoDayInjective` and
`Dates.IsoDayOrder` show that comparing the texts is the same as comparing
the numbers. Comparing texts with `===` always matches comparing numbers.
Comparing with `<` matches for years 0000 to 9999.

Where the code and its documentation disagree, the model follows the code:

- The doc comment on `formatDate` (utils/date.js:3-6) says it uses local time,
  but the code calls `toISOString`, which is UTC. The model uses UTC.
- The streak definition speaks of consecutive days, as if the newest-first walk
  ran over distinct days. The code walks over all of the sorted session dates
  (utils/storage.js:95-104) and stops at the first difference other than -1. A
  repeated date therefore ends the walk. `Metrics.RepeatedDayStopsWalk` shows a
  ledger with a two-day run whose current streak is 1. `appendSession` never
  creates a repeated date, so `Metrics.CurrentStreakEndsToday` assumes one
  record per day. `Pomodoro.StepKeepsUniqueDays` shows that the app keeps that
  property.
- The comment on `computeMetrics` (utils/storage.js:54-57) defines a streak as
  consecutive days "with any non-zero duration". The code never looks at the
  duration, and `appendSession` accepts any value. A record of 0 s or less
  therefore extends both streaks like any other. The model follows the code:
  streaks are over the set of recorded days. `Metrics.ZeroDurationCounts`
  shows a record of 0 s joining a two-day streak.
- The walk starts at the newest recorded day, not at today. A session dated
  after today (a clock set back) gives a streak that ends on that later day.
  `Metrics.FutureDayExample` shows it.

## Model

| member | source | states |
|---|---|---|
| Ledger.LoadSessions | utils/storage.js:12-20 | A readable store yields its records. A missing or unreadable store yields the empty list rather than an error. |
| Ledger.SaveSessions | utils/storage.js:26-32 | A successful write replaces the stored list. A failed write is swallowed and leaves the store unchanged. |
| Ledger.SaveLoadRoundTrip | utils/storage.js:12-32 | Loading after a successful save gives back exactly the saved list. |
| Ledger.FindIndex | utils/storage.js:44 | The result is the first position holding the day. It is -1 exactly when no record holds the day. |
| Ledger.FindIndexByTextAgrees | utils/storage.js:43-44 | Searching for the `YYYY-MM-DD` text of a day finds the same position as searching for the day. |
| Ledger.AppendSession | utils/storage.js:41-52 | The returned list is the loaded list with the duration merged into the instant's UTC day. After a successful write, loading gives that list. A failed write leaves the store unchanged. |
| Ledger.AppendOverUnreadable | utils/storage.js:12-52 | Appending over an unreadable store starts a new list holding only the new record. |
| Ledger.AppendTwiceExample | utils/storage.js:41-52 | Two appends a minute apart on one day leave one record holding both durations. |
| Ledger.FindIndexDays | utils/storage.js:93 | A record is dated on a day exactly when that day is among the ledger's days. |
| Ledger.CountOnZero | utils/storage.js:66-71 | A day has no sessions exactly when the search finds no record for it. Such a day's total is 0. |
| Ledger.MergeTotals | utils/storage.js:44-49 | A merge adds the duration to the day's total. The day's count becomes 1 if it was 0 and is otherwise unchanged. Every other day's total and count stay the same. |
| Ledger.MergeAny | utils/storage.js:44-49 | States every day's total and count after a merge, as a function of the totals and counts before it. |
| Ledger.Merge | utils/storage.js:44-49 | The merged list is the old one or one record longer. Every existing position keeps its day. |
| Ledger.MergePositions | utils/storage.js:44-49 | For a day already present, the length is unchanged, the first record of that day gains the duration, and every other record is unchanged. For a new day, the result is the old list followed by one record of that day and duration. |
| Ledger.MergeShape | utils/storage.js:44-49 | The list grows by one record exactly when the day was new. Its set of days gains exactly that day. |
| Ledger.MergeKeepsUniqueDays | utils/storage.js:44-49 | A ledger with one record per day keeps one record per day after a merge. |
| Ledger.UniqueDayTotal | utils/storage.js:66-71 | With one record per day, a day has at most one session, and its total is that record's duration. |
| Ledger.MergeSameDay | utils/storage.js:41-52 | Two appends to one day give the same list as one append of the summed duration. |
| Ledger.MergeCommutesOnTotals | utils/storage.js:41-52 | The order of two appends does not change any day's total or count. |
| Sorting.SortByDay | utils/storage.js:64 | The result is in date order and as long as the input. |
| Sorting.SortByDayPermutes | utils/storage.js:64 | The sort only rearranges the records: the two lists hold the same multiset of records. |
| Sorting.SortKeepsDays | utils/storage.js:64 | The sorted list holds exactly the input's days. |
| Sorting.SortKeepsTotals | utils/storage.js:64-71 | Summing and counting today's records give the same figures over the sorted list as over the input. |
| Sorting.SortKeepsUniqueDays | utils/storage.js:64 | Sorting keeps one record per day. |
| Sorting.SortedDaysUnique | utils/storage.js:64 | Two ascending arrangements of the same multiset of days are equal. |
| Sorting.SortDaysDetermined | utils/storage.js:64 | Any date-sorted list holding the same days, each the same number of times, has the same day sequence as the modelled sort. The comparator's order for equal dates therefore cannot change the streaks. |
| Sorting.SortDaysPermute | utils/storage.js:64 | Sorting rearranges the days: the multiset of days is unchanged. |
| Sorting.SortDescending | utils/storage.js:110-112 | The days come out newest first, and there are as many as went in. |
| Sorting.SortDescendingPermutes | utils/storage.js:110-112 | The newest-first sort only rearranges the days. |
| Sorting.UniqueDaysDistinct | utils/storage.js:95 | A ledger has one record per day exactly when its list of days has no repeats. |
| Sorting.DistinctPermutation | utils/storage.js:110-112 | Rearranging a list without repeats gives a list without repeats. |
| Streaks.RunEnd | utils/storage.js:76-89 | The scan's counter is 0 for no days and between 1 and the number of days otherwise. |
| Streaks.Longest | utils/storage.js:73-90 | The longest streak is 0 exactly when there are no days, and never more than their number. |
| Streaks.Walk | utils/storage.js:95-104 | The walk takes fewer steps than there are days, and none for no days. |
| Streaks.RunEndCovers | utils/storage.js:76-89 | When the oldest-first scan ends with counter `c`, the `c` days ending at the last day scanned are all present. |
| Streaks.RunEndReaches | utils/storage.js:76-89 | Every run of present days ending at the last day scanned is at most as long as the counter. |
| Streaks.LongestIsLongestRun | utils/storage.js:73-90 | `longest` is the length of some run of consecutive present days. No longer run exists. |
| Streaks.WalkRun | utils/storage.js:95-104 | On newest-first days without repeats, the walk covers a run of consecutive days ending at the newest day. The day before that run is absent. |
| Metrics.MetricsOf | utils/storage.js:59-107 | Neither streak is longer than the ledger. An empty ledger gives zero for all four figures. |
| Metrics.ComputeMetrics | utils/storage.js:59-107 | The figures from the sort, the today loop, the streak scan and the walk equal the reference `MetricsOf` at the UTC day of `now`. |
| Metrics.TodayScan | utils/storage.js:66-71 | The loop computes the total and the number of the sorted list's records on today. |
| Metrics.LongestScan | utils/storage.js:73-90 | The loop, including its restarts and its repeated-date case, computes `longest`. |
| Metrics.CurrentScan | utils/storage.js:96-104 | The loop with its `break` computes one plus the number of one-day steps the walk takes. |
| Metrics.TodayFigures | utils/storage.js:62-71 | `totalToday` and `sessionsToday` are the sum and the count of the ledger's records dated today. |
| Metrics.SortedDayFacts | utils/storage.js:64 | The sorted day list is ascending, as long as the ledger, and holds exactly the ledger's days. |
| Metrics.LongestStreakIsLongestRun | utils/storage.js:73-90 | The longest streak is 0 exactly when the ledger is empty. It is never more than the ledger's length. It is the length of some run of consecutive session days, and no longer run exists. |
| Metrics.CurrentStreakZero | utils/storage.js:92-105 | The current streak is 0 exactly when no session is dated today. It never exceeds the number of records. |
| Metrics.NewestFirstFacts | utils/storage.js:95 | The newest-first day list is descending and holds exactly the ledger's days. It has no repeats when the ledger has one record per day. |
| Metrics.CurrentStreakRun | utils/storage.js:92-104 | Suppose the ledger has one record per day and a session today. Then the current streak is the length of the run of consecutive session days ending at the newest day. |
| Metrics.CurrentStreakEndsToday | utils/storage.js:92-104 | Suppose no session is dated after today and the ledger has one record per day. Then the current streak is at least 1 and is exactly the length of the run of session days ending today. |
| Metrics.AfterRecordingToday | utils/storage.js:41-107 | In a ledger with one record per day, after a session is merged into today, today shows exactly one session and the current streak is at least 1. |
| Metrics.ThreeDayExample | utils/storage.js:59-107 | Three sessions on three consecutive days, stored out of order, give 1500 s today, one session, a current streak of 3 and a longest streak of 3. |
| Metrics.RepeatedDayStopsWalk | utils/storage.js:95-104 | Days 4 and 5 are present, but day 5 appears twice, so the walk stops and the current streak is 1. |
| Metrics.GapExample | utils/storage.js:73-104 | Sessions on days 1 and 5, with today being day 5, give one session, 1500 s, and a current and a longest streak of 1. |
| Metrics.EmptyLedger | utils/storage.js:59-107 | An empty ledger gives zero for all four figures. |
| Metrics.ZeroDurationCounts | utils/storage.js:73-104 | A record of 0 s on day 4 joins day 5 in both streaks, giving current and longest streaks of 2. |
| Metrics.FutureDayExample | utils/storage.js:95-104 | The walk starts at the newest day even when that day is after today. |
| Dates.FormatDate | utils/date.js:7-9 | The text reads back as the UTC calendar day of the instant. |
| Dates.IsoDay | utils/date.js:8 | The day text has at least ten characters: a year field of four or more, then `-MM-DD`. |
| Dates.IsoDayRoundTrip | utils/date.js:7-9 | Reading the date text of any day gives that day back. |
| Dates.IsoDayInjective | utils/date.js:7-9 | Two days have the same date text exactly when they are the same day. |
| Dates.IsoDayShape | utils/date.js:7-9 | For years 0000 to 9999 the text has ten characters: digits with dashes at positions 4 and 7. |
| Dates.YearFieldFacts | utils/date.js:8 | The year field has four digits for years 0 to 9999 and at least seven characters otherwise. It always reads back as the year. |
| Dates.IsoDayOrder | utils/date.js:7-9 | For years 0000 to 9999, comparing date texts with `<` is the same as comparing the days. |
| Dates.CivilTextOrder | utils/date.js:7-9 | The text of one calendar date sorts before another's exactly when the first date is earlier. |
| Dates.FormatDateIdempotent | utils/date.js:7-9 | Midnight UTC of an instant's day formats to the same text as the instant. |
| Dates.IsSameDay | utils/date.js:16-22 | The result is true exactly when the two instants fall on the same local calendar day. |
| Dates.SameDayIffSameIsoText | utils/date.js:16-22 | In the UTC zone, two instants are on the same day exactly when `formatDate` gives them the same text. |
| Dates.GetLastNDates | utils/date.js:29-38 | There are `n` dates, or none when `n <= 0`. They fall on consecutive local days and end with `now` itself. The `k`-th date is `n-1-k` days before today. |
| Dates.Weekday | utils/date.js:46 | The weekday number is between 0 (Sunday) and 6 (Saturday). |
| Dates.GetDayName | utils/date.js:44-47 | The result is one of the seven three-letter names. |
| Dates.DayNameCycle | utils/date.js:44-47 | One day later gives the next name in the week. Seven days later gives the same name. |
| Dates.DayNameAnchors | utils/date.js:44-47 | 1970-01-01 is a Thursday and 2024-01-01 is a Monday. |
| Calendar.CivilOf | utils/date.js:8 | Every day number names a real calendar date whose day number is the one given. |
| Calendar.CivilRoundTrip | utils/date.js:8 | Every real calendar date is the date of its own day number. |
| Calendar.CivilOfOrder | utils/date.js:8 | A day number is smaller exactly when its calendar date is earlier. |
| Pomodoro.Next | screens/HomeScreen.js:97 | Advancing always changes the period. It wraps to 0 exactly from the long break, and it alternates work and break. |
| Pomodoro.FourAdvances | screens/HomeScreen.js:97 | Four advances return to the start, passing through all four periods. |
| Pomodoro.TickRemaining | screens/HomeScreen.js:35-38 | A tick from zero or below gives 0. From a positive count it goes down by exactly one. |
| Pomodoro.Countdown | screens/HomeScreen.js:33-42 | After at least one tick the count is not negative. Ticks never raise a count that starts at zero or above. |
| Pomodoro.CountdownClosedForm | screens/HomeScreen.js:33-39 | After `n` ticks the count is `prev - n`, or 0 once it would go below zero. |
| Pomodoro.HandleStartPause | screens/HomeScreen.js:57-59 | The running flag flips. Nothing else changes. |
| Pomodoro.HandleReset | screens/HomeScreen.js:61-65 | The timer stops on the full first work period of 1500 s. |
| Pomodoro.ResetFromAnywhere | screens/HomeScreen.js:61-65 | Reset leads every state to the same timer and leaves the ledger and the figures alone. |
| Pomodoro.HandlePeriodEnd | screens/HomeScreen.js:71-100 | When the awaited calls resolve, the next period starts, full and running. A break leaves the store and the figures alone. After a work period whose write succeeds, the store holds the loaded list with the period's length merged into the UTC day of `now`. A failed write leaves the store as it was. After a work period, the figures are those of the list the store then holds, on the UTC day of `now`. |
| Pomodoro.Step | screens/HomeScreen.js:31-65 | No event (a second passing, start/pause, reset) takes the timer out of range: the count stays positive and no longer than its period. |
| Pomodoro.PeriodEndsOnlyAtZero | screens/HomeScreen.js:45-50 | The period changes only on reset, or on a second that takes a running count from 1 to 0. The ledger changes only when that happens in a work period. |
| Pomodoro.WorkPeriodRecorded | screens/HomeScreen.js:88-93 | Suppose the ledger has one record per day, the last second of a work period passes, and the write succeeds. Then the ledger gains 1500 s on today. The figures show one session today, today's earlier total plus 1500, and a current streak of at least 1. |
| Pomodoro.WorkPeriodEnd | screens/HomeScreen.js:88-93 | The same facts, stated for the end of a work period directly. |
| Pomodoro.RecordedMetrics | screens/HomeScreen.js:89-92 | In a ledger with one record per day, metrics recomputed after merging a duration into today show one session today, today's earlier total plus the duration, and a current streak of at least 1. |
| Pomodoro.PeriodEndStore | screens/HomeScreen.js:88-93 | When the write succeeds, a work period's end merges its length into the UTC day of `now`. A break's end, or a failed write, leaves the ledger unchanged. |
| Pomodoro.PeriodEndWriteFails | utils/storage.js:26-32 | A failed write loses the session: the store keeps what it held. After a work period, the figures shown are those of the old list on the UTC day of `now`. |
| Pomodoro.StepKeepsUniqueDays | screens/HomeScreen.js:88-93 | No event ever gives the ledger two records for one day. |
| Pomodoro.Seconds | screens/HomeScreen.js:31-65 | Any number of seconds keeps a valid timer valid. |
| Pomodoro.SecondsWithinPeriod | screens/HomeScreen.js:33-39 | While fewer seconds pass than remain, only the count changes, by exactly that many seconds. |
| Pomodoro.PeriodEndsOnTime | screens/HomeScreen.js:33-50 | A running period ends exactly when its remaining seconds have passed. |
| Pomodoro.WholePeriod | screens/HomeScreen.js:33-100 | When writes succeed, a full period moves to the next period, full and running. The ledger gains that period's length only if it was a work period. |
| Pomodoro.WorkAndBreak | screens/HomeScreen.js:16-100 | When writes succeed, a work period and the break after it move on by two periods and record 1500 s once. |
| Pomodoro.FullCycle | screens/HomeScreen.js:16-100 | When writes succeed, the full 4200 s cycle returns to the start and adds 3000 s to today's total. No other day's total changes. |
| Totals.FormatTotal | screens/HomeScreen.js:103-107 | The text always ends in `m` and has at least two characters. |
| Totals.HoursAndMinutes | screens/HomeScreen.js:104-105 | For a non-negative total, the hours and minutes fields are the total's whole minutes split into hours and minutes under 60. |
| Totals.TotalText | screens/HomeScreen.js:106 | The text always ends in `m` and has at least two characters. |
| Totals.TotalTextReads | screens/HomeScreen.js:106 | The hour-and-minute text reads back as the seconds it stands for. |
| Totals.FormatTotalRoundTrip | screens/HomeScreen.js:103-107 | Reading the text back gives the total rounded down to whole minutes. |
| Totals.FormatTotalHours | screens/HomeScreen.js:106 | The hours part (the only space) appears exactly when the total is at least an hour. |
| Totals.FormatTotalShape | screens/HomeScreen.js:103-107 | Under an hour the text is the whole minutes followed by `m`. The minutes field is below 60. |
| Totals.FormatTotalExamples | screens/HomeScreen.js:103-107 | 0 s shows as `0m`, 3000 s as `50m` and 5159 s as `1h 25m`. |
| TimerCircle.ClockText | components/TimerCircle.js:18-21 | The text has at least five characters. |
| TimerCircle.MinutesField | components/TimerCircle.js:18-21 | The minutes field has at least two characters. |
| TimerCircle.SecondsField | components/TimerCircle.js:18-21 | The seconds field has at least two characters. |
| TimerCircle.ClockFields | components/TimerCircle.js:18-21 | For a count of zero or more, the fields are digit strings of the minutes and seconds. The seconds field has exactly two digits. |
| TimerCircle.ClockRoundTrip | components/TimerCircle.js:18-21 | Reading the `MM:SS` text back gives the count for every count of zero or more, including 100 minutes and more. |
| TimerCircle.ClockWidth | components/TimerCircle.js:18-21 | Below 100 minutes the text is exactly five characters. |
| TimerCircle.ClockOrder | components/TimerCircle.js:18-21 | Below 100 minutes, comparing texts with `<` is the same as comparing the counts. |
| Digits.IntToString | components/TimerCircle.js:18-21 | The text is the digits of a non-negative number. A negative number gets a leading minus sign, and only then. |
| Digits.PadStart | components/TimerCircle.js:18-21 | The text is filled on the left up to the width and never cut. The original text is its tail. |
| Digits.PadStartDigits | components/TimerCircle.js:18-21 | Zero-padding a number's digits keeps a digit string with the same value. |
| Digits.JsRem | components/TimerCircle.js:21 | The remainder is below the divisor in size and differs from the dividend by a multiple of it. It is the usual remainder for a non-negative dividend, and zero or negative for a negative one, as truncating division gives. |
| Digits.DigitStringOrder | utils/storage.js:64 | For digit strings of one length, comparing with `<` is comparing values, and equal strings mean equal values. |

## Left out

- AsyncStorage and JSON are left out. The store is a value (`Missing`, `Holding(records)` or `Unreadable`) and a write either succeeds or fails, as a parameter. Serialisation and the storage key are not modelled.
- Concurrency is left out. `handlePeriodEnd` awaits a chime, the append, a reload and `stop()`, and other updates could interleave with those awaits. The model takes the period end as one atomic step.
- Records do not hold their date text. In the source each record holds the text itself. The model keeps the day number and relates it to its text with `Ledger.FindIndexByTextAgrees` and `Dates.IsoDayInjective`.
- Dates.FormatDate: `toISOString` throws a `RangeError` for instants more than 100,000,000 days from the epoch. The model formats every instant, and its contract says nothing about that range.
- Dates.IsoDayOrder: for years outside 0000 to 9999 the signed six-digit year does not sort correctly as a string. The order lemma is stated only for four-digit years. The app never meets those years.
- Malformed stored dates and durations are left out. JSON could hold any text, and `new Date` of a malformed text gives `NaN`. Records hold a day number and an integer duration instead.
- Durations are integers. JavaScript numbers are floating point, but the app only ever adds whole seconds.
- Time zones are a fixed offset. The local-time helpers take a constant offset, so daylight-saving changes are not modelled. `streaks` and `formatDate` are UTC in the source and need no offset.
- Dates.GetLastNDates: `setDate(getDate() - i)` is modelled as stepping back `i` whole days of 86,400,000 ms. This agrees with the source whenever no daylight-saving change falls in the range.
- The clock is a parameter. `computeMetrics` and `handlePeriodEnd` each call `new Date()`, and the model gives both the same instant `now`. `Pomodoro.Seconds` runs a number of seconds at that one `now`, so no midnight passes during them.
- React state is left out. The hooks, `setInterval`, effect ordering and rendering become one `Screen` value and the `Step` function. The effect that resets `remaining` when the period changes is folded into `HandlePeriodEnd` and `HandleReset`.
- The metrics on screen are kept as the list and the day they were computed from (`Pomodoro.Shown`). The figures themselves are `Pomodoro.FiguresOf` of that pair. The initial load on mount (screens/HomeScreen.js:24-28) is not modelled as an event.
- Pomodoro.HandlePeriodEnd: a rejected `await appendSession(...)` or `await stop()` (screens/HomeScreen.js:89-95) ends `handlePeriodEnd` before it advances the period. `appendSession` rejects when the stored value is not an array or holds a `null` entry. `stop()` rejects when the ambient sound fails to stop or unload. The timer is then left paused at 0 on the same period, with nothing to restart it. If `stop()` rejects, the session has already been written. The model always advances.
- Sound is left out: the chime, `Audio.Sound.createAsync`, its unload callback, and `stop()` of the ambient sound context.
- The timer circle's geometry is left out: radius, stroke and dash offset are floating-point drawing only.
- Sorting.SortByDay: the source comparator `a.date < b.date ? -1 : 1` never returns 0, so the order of records with equal dates is left to the engine. The model is one particular insertion sort, which is not stable: records with equal days come out in reverse input order (`Sorting.EqualDaysReversed` shows one such pair). `Sorting.SortDaysDetermined` shows that any date-sorted arrangement gives the same day sequence, so the streaks do not depend on that choice.
- Digits.IntToString: JavaScript writes numbers of 1e21 and above in exponent notation. The model always writes plain digits. The app's counts and durations stay far below that.
- The other screens and components are not part of this model: the profile screen, the bar chart, the sounds screen, the sound context and card, and the app shell.

=== FILE: calendar.dfy ===
/**
 The proleptic Gregorian calendar that JavaScript's `Date` uses, with calendar
 days numbered as integers: day 0 is 1970-01-01, the epoch day. `CivilOf` turns
 a day number into (year, month, day-of-month); `DayNumber` is its inverse, and
 both preserve order, so the day number is a faithful stand-in for a calendar
 date.
 */
module Calendar {

  predicate IsLeapYear(y: int) {
    y % 4 == 0 && (y % 100 != 0 || y % 400 == 0)
  }

  function YearLength(y: int): int {
    if IsLeapYear(y) then 366 else 365
  }

  function MonthLength(y: int, m: int): int
    requires 1 <= m <= 12
  {
    if m == 2 then (if IsLeapYear(y) then 29 else 28)
    else if m == 4 || m == 6 || m == 9 || m == 11 then 30
    else 31
  }

  /** Days of year `y` before the first of month `m`; month 13 stands for the next January. */
  function DaysBeforeMonth(y: int, m: int): int
    requires 1 <= m <= 13
  {
    [0, 31, 59, 90, 120, 151, 181, 212, 243, 273, 304, 334, 365][m - 1]
      + (if IsLeapYear(y) && m > 2 then 1 else 0)
  }

  /** Multiples of `k` in [0, y) when y >= 0, negated count of those in [y, 0) otherwise. */
  function MultiplesBelow(y: int, k: int): int
    requires k > 0
  {
    (y + k - 1) / k
  }

  function LeapsBelow(y: int): int {
    MultiplesBelow(y, 4) - MultiplesBelow(y, 100) + MultiplesBelow(y, 400)
  }

  /** Day number of January 1 of year `y`. */
  function YearStart(y: int): int {
    365 * (y - 1970) + LeapsBelow(y) - LeapsBelow(1970)
  }

  datatype Civil = Civil(year: int, month: int, day: int)

  predicate ValidCivil(c: Civil) {
    1 <= c.month <= 12 && 1 <= c.day <= MonthLength(c.year, c.month)
  }

  /** Chronological order on calendar dates: year, then month, then day. */
  predicate CivilBefore(a: Civil, b: Civil) {
    a.year < b.year
    || (a.year == b.year && (a.month < b.month || (a.month == b.month && a.day < b.day)))
  }

  function DayNumber(c: Civil): int
    requires ValidCivil(c)
  {
    YearStart(c.year) + DaysBeforeMonth(c.year, c.month) + c.day - 1
  }

  /** Stepping `y` by one adds a multiple of `k` exactly when `y` itself is one. */
  lemma MultiplesStep4(y: int)
    ensures MultiplesBelow(y + 1, 4) == MultiplesBelow(y, 4) + (if y % 4 == 0 then 1 else 0)
  {
  }

  lemma MultiplesStep100(y: int)
    ensures MultiplesBelow(y + 1, 100) == MultiplesBelow(y, 100) + (if y % 100 == 0 then 1 else 0)
  {
  }

  lemma MultiplesStep400(y: int)
    ensures MultiplesBelow(y + 1, 400) == MultiplesBelow(y, 400) + (if y % 400 == 0 then 1 else 0)
  {
  }

  /** Every multiple of 100 is a multiple of 4. */
  lemma Mult100IsMult4(y: int)
    requires y % 100 == 0
    ensures y % 4 == 0
  {
    var q := y / 100;
    assert y == 100 * q;
    assert y / 4 == 25 * q;
  }

  /** Every multiple of 400 is a multiple of 100. */
  lemma Mult400IsMult100(y: int)
    requires y % 400 == 0
    ensures y % 100 == 0
  {
    var q := y / 400;
    assert y == 400 * q;
    assert y / 100 == 4 * q;
  }

  /** Stepping past year `y` adds one to the leap-year count exactly when `y` is a leap year. */
  lemma LeapsStep(y: int)
    ensures LeapsBelow(y + 1) == LeapsBelow(y) + (if IsLeapYear(y) then 1 else 0)
  {
    MultiplesStep4(y);
    MultiplesStep100(y);
    MultiplesStep400(y);
    if y % 100 == 0 {
      Mult100IsMult4(y);
    }
    if y % 400 == 0 {
      Mult400IsMult100(y);
    }
  }

  lemma YearStartStep(y: int)
    ensures YearStart(y + 1) == YearStart(y) + YearLength(y)
  {
    LeapsStep(y);
  }

  lemma {:induction false} YearStartMonotone(a: int, b: int)
    requires a <= b
    ensures YearStart(a) + 365 * (b - a) <= YearStart(b)
    decreases b - a
  {
    if a < b {
      YearStartMonotone(a, b - 1);
      YearStartStep(b - 1);
    }
  }

  lemma MonthStep(y: int, m: int)
    requires 1 <= m <= 12
    ensures DaysBeforeMonth(y, m + 1) == DaysBeforeMonth(y, m) + MonthLength(y, m)
  {
  }

  lemma {:induction false} DaysBeforeMonthMonotone(y: int, m: int, n: int)
    requires 1 <= m <= n <= 13
    ensures DaysBeforeMonth(y, m) + 28 * (n - m) <= DaysBeforeMonth(y, n)
    decreases n - m
  {
    if m < n {
      DaysBeforeMonthMonotone(y, m, n - 1);
      MonthStep(y, n - 1);
    }
  }

  /**
   Locates day `YearStart(y) + r` by walking whole years from year `y`: the
   result is a year and an offset inside that year naming the same day.
   */
  function FindYear(y: int, r: int): (p: (int, int))
    ensures YearStart(p.0) + p.1 == YearStart(y) + r
    ensures 0 <= p.1 < YearLength(p.0)
    decreases if r < 0 then 1 else 0, if r < 0 then -r else r
  {
    if r < 0 then
      YearStartStep(y - 1);
      FindYear(y - 1, r + YearLength(y - 1))
    else if r >= YearLength(y) then
      YearStartStep(y);
      FindYear(y + 1, r - YearLength(y))
    else
      (y, r)
  }

  /** Locates offset `r` past the first of month `m` of year `y` as (month, day-of-month). */
  function FindMonth(y: int, m: int, r: int): (p: (int, int))
    requires 1 <= m <= 12 && 0 <= r && DaysBeforeMonth(y, m) + r < YearLength(y)
    ensures 1 <= p.0 <= 12 && 1 <= p.1 <= MonthLength(y, p.0)
    ensures DaysBeforeMonth(y, p.0) + p.1 - 1 == DaysBeforeMonth(y, m) + r
    decreases 12 - m
  {
    MonthStep(y, m);
    if r < MonthLength(y, m) then (m, r + 1)
    else FindMonth(y, m + 1, r - MonthLength(y, m))
  }

  /** The calendar date of day number `d`; `DayNumber` takes it back to `d`. */
  function CivilOf(d: int): (c: Civil)
    ensures ValidCivil(c) && DayNumber(c) == d
  {
    YearStartStep(1970);
    var (y, r) := FindYear(1970, d);
    var (m, dd) := FindMonth(y, 1, r);
    Civil(y, m, dd)
  }

  /** Later calendar dates have larger day numbers. */
  lemma DayNumberMonotone(a: Civil, b: Civil)
    requires ValidCivil(a) && ValidCivil(b) && CivilBefore(a, b)
    ensures DayNumber(a) < DayNumber(b)
  {
    if a.year < b.year {
      DayNumberBelowNextYear(a);
      YearStartMonotone(a.year + 1, b.year);
      assert YearStart(b.year) <= DayNumber(b);
    } else if a.month < b.month {
      MonthStep(a.year, a.month);
      DaysBeforeMonthMonotone(a.year, a.month + 1, b.month);
    }
  }

  /** Every day of a year comes before the next year's first day. */
  lemma DayNumberBelowNextYear(a: Civil)
    requires ValidCivil(a)
    ensures DayNumber(a) < YearStart(a.year + 1)
  {
    MonthStep(a.year, a.month);
    DaysBeforeMonthMonotone(a.year, a.month + 1, 13);
    YearStartStep(a.year);
  }

  /** Day numbers and valid calendar dates are in one-to-one correspondence. */
  lemma CivilRoundTrip(c: Civil)
    requires ValidCivil(c)
    ensures CivilOf(DayNumber(c)) == c
  {
    var c' := CivilOf(DayNumber(c));
    if CivilBefore(c, c') {
      DayNumberMonotone(c, c');
    } else if CivilBefore(c', c) {
      DayNumberMonotone(c', c);
    }
  }

  /** Calendar order agrees with day-number order, both ways. */
  lemma CivilOfOrder(d1: int, d2: int)
    ensures d1 < d2 <==> CivilBefore(CivilOf(d1), CivilOf(d2))
  {
    var c1, c2 := CivilOf(d1), CivilOf(d2);
    if CivilBefore(c1, c2) {
      DayNumberMonotone(c1, c2);
    } else if CivilBefore(c2, c1) {
      DayNumberMonotone(c2, c1);
    }
  }

}

=== FILE: dates.dfy ===
/**
 The date helpers of utils/date.js. A `Date` is modelled by its time value (an
 `Instant` in milliseconds since the epoch); the calendar fields a `Date`
 reports in local time are taken at a fixed UTC offset passed in explicitly,
 and `toISOString` reports the UTC calendar day.
 */
module Dates {
  import opened Wrappers
  import opened Digits
  import opened Calendar

  /** A JavaScript time value: milliseconds since 1970-01-01T00:00:00Z. */
  type Instant = int

  const MsPerDay: int := 86_400_000

  /** The UTC calendar day an instant falls on (floor division, also for instants before 1970). */
  function UtcDay(t: Instant): int {
    t / MsPerDay
  }

  /** The local calendar day of an instant, for a zone `offset` milliseconds ahead of UTC. */
  function LocalDay(t: Instant, offset: int): int {
    (t + offset) / MsPerDay
  }

  /** Year field of `toISOString`: four digits for years 0..9999, otherwise a sign and six digits. */
  function YearField(y: int): string {
    if 0 <= y <= 9999 then PadStart(NatToString(y), 4)
    else (if y < 0 then "-" else "+") + PadStart(NatToString(if y < 0 then -y else y), 6)
  }

  /** A two-digit month or day-of-month field. */
  function Field2(n: nat): string {
    PadStart(NatToString(n), 2)
  }

  /** The text after the year: `-MM-DD`. */
  function MonthDayField(m: nat, e: nat): string {
    "-" + (Field2(m) + ("-" + Field2(e)))
  }

  /** The `YYYY-MM-DD` text of a calendar day, as `toISOString` spells its date part. */
  function IsoDay(d: int): (s: string)
    ensures |s| >= 10
  {
    YearField(CivilOf(d).year) + MonthDayField(CivilOf(d).month, CivilOf(d).day)
  }

  /** `formatDate(date)`: the date part of `date.toISOString()`, so the UTC day of the instant. */
  function FormatDate(t: Instant): (s: string)
    ensures ParseIsoDay(s) == Some(UtcDay(t))
  {
    IsoDayRoundTrip(UtcDay(t));
    IsoDay(UtcDay(t))
  }

  function ParseYearField(t: string): Option<int> {
    if |t| == 4 && AllDigits(t) then Some(ParseDigits(t))
    else if |t| >= 7 && (t[0] == '+' || t[0] == '-') && AllDigits(t[1..]) then
      var magnitude: int := ParseDigits(t[1..]);
      Some(if t[0] == '-' then -magnitude else magnitude)
    else None
  }

  /** Reads `-MM-DD` as (month, day-of-month). */
  function ParseMonthDay(t: string): Option<(int, int)>
    requires |t| == 6
  {
    if t[0] != '-' || t[3] != '-' || !AllDigits(t[1..3]) || !AllDigits(t[4..]) then None
    else Some((ParseDigits(t[1..3]), ParseDigits(t[4..])))
  }

  /**
   The model's reader of `IsoDay` text, standing in for `new Date(iso)` on a
   date-only ISO string: the day whose UTC midnight the text names. Text that
   is not a year field followed by `-MM-DD` naming a real calendar date gives
   `None`. It is more lenient than JavaScript's parser, which also rejects
   signed years of more than six digits and the year "-000000".
   */
  function ParseIsoDay(s: string): Option<int> {
    if |s| < 10 then None
    else DayOfFields(ParseYearField(s[..|s| - 6]), ParseMonthDay(s[|s| - 6..]))
  }

  /** The day named by a read year and a read (month, day-of-month), when it is a real date. */
  function DayOfFields(year: Option<int>, monthDay: Option<(int, int)>): Option<int> {
    match (year, monthDay)
    case (Some(y), Some((m, dd))) =>
      if ValidCivil(Civil(y, m, dd)) then Some(DayNumber(Civil(y, m, dd))) else None
    case _ => None
  }

  lemma YearFieldFacts(y: int)
    ensures 0 <= y <= 9999 ==> |YearField(y)| == 4 && AllDigits(YearField(y)) && ParseDigits(YearField(y)) == y
    ensures !(0 <= y <= 9999) ==> |YearField(y)| >= 7
    ensures ParseYearField(YearField(y)) == Some(y)
  {
    if 0 <= y <= 9999 {
      FourDigitYearField(y);
    } else {
      WideYearField(y);
    }
  }

  lemma FourDigitYearField(y: int)
    requires 0 <= y <= 9999
    ensures |YearField(y)| == 4 && AllDigits(YearField(y)) && ParseDigits(YearField(y)) == y
    ensures ParseYearField(YearField(y)) == Some(y)
  {
    PadStartDigits(y, 4);
    Pow10Values();
    PadStartWidth(y, 4);
  }

  lemma WideYearField(y: int)
    requires !(0 <= y <= 9999)
    ensures |YearField(y)| >= 7
    ensures ParseYearField(YearField(y)) == Some(y)
  {
    var mag: nat := if y < 0 then -y else y;
    var p := PadStart(NatToString(mag), 6);
    PadStartDigits(mag, 6);
    var sign := if y < 0 then '-' else '+';
    assert YearField(y) == [sign] + p;
    SignedFieldParse(sign, p);
  }

  /** A sign followed by six or more digits reads back as the signed value. */
  lemma SignedFieldParse(sign: char, p: string)
    requires sign == '+' || sign == '-'
    requires |p| >= 6 && AllDigits(p)
    ensures ParseYearField([sign] + p)
      == Some(if sign == '-' then -(ParseDigits(p) as int) else ParseDigits(p))
  {
    assert ([sign] + p)[1..] == p;
  }

  lemma Field2Facts(n: nat)
    requires n < 100
    ensures |Field2(n)| == 2 && AllDigits(Field2(n)) && ParseDigits(Field2(n)) == n
  {
    PadStartDigits(n, 2);
    Pow10Values();
    PadStartWidth(n, 2);
  }

  lemma MonthDayRoundTrip(month: int, day: int)
    requires 0 <= month < 100 && 0 <= day < 100
    ensures |MonthDayField(month, day)| == 6
    ensures ParseMonthDay(MonthDayField(month, day)) == Some((month, day))
  {
    var m, e := Field2(month), Field2(day);
    assert |m| == 2 && AllDigits(m) && ParseDigits(m) == month by {
      Field2Facts(month);
    }
    assert |e| == 2 && AllDigits(e) && ParseDigits(e) == day by {
      Field2Facts(day);
    }
    MonthDayParse(m, e);
  }

  /** `-MM-DD` built from two two-digit fields reads back as their values. */
  lemma MonthDayParse(m: string, e: string)
    requires |m| == 2 && |e| == 2 && AllDigits(m) && AllDigits(e)
    ensures |"-" + (m + ("-" + e))| == 6
    ensures ParseMonthDay("-" + (m + ("-" + e))) == Some((ParseDigits(m), ParseDigits(e)))
  {
    var t := "-" + (m + ("-" + e));
    assert t[1..3] == m;
    assert t[4..] == e;
  }

  lemma SplitAt<T>(a: seq<T>, b: seq<T>)
    ensures (a + b)[..|a|] == a && (a + b)[|a|..] == b
  {
  }

  lemma ParseIsoText(c: Civil)
    requires ValidCivil(c)
    ensures ParseIsoDay(YearField(c.year) + MonthDayField(c.month, c.day)) == Some(DayNumber(c))
  {
    var y, md := YearField(c.year), MonthDayField(c.month, c.day);
    assert ParseYearField(y) == Some(c.year) && |y| >= 4 by {
      YearFieldFacts(c.year);
    }
    assert ParseMonthDay(md) == Some((c.month, c.day)) && |md| == 6 by {
      assert 0 <= c.month < 100 && 0 <= c.day < 100;
      MonthDayRoundTrip(c.month, c.day);
    }
    SplitAt(y, md);
    assert DayOfFields(Some(c.year), Some((c.month, c.day))) == Some(DayNumber(c));
  }

  /** Reading back what `formatDate` wrote gives the same day, for every day. */
  lemma IsoDayRoundTrip(d: int)
    ensures ParseIsoDay(IsoDay(d)) == Some(d)
  {
    ParseIsoText(CivilOf(d));
  }

  /** `formatDate` never maps two different days to the same text. */
  lemma IsoDayInjective(d1: int, d2: int)
    ensures IsoDay(d1) == IsoDay(d2) <==> d1 == d2
  {
    IsoDayRoundTrip(d1);
    IsoDayRoundTrip(d2);
  }

  predicate FourDigitYear(d: int) {
    0 <= CivilOf(d).year <= 9999
  }

  /** For years 0000..9999 the text is exactly `YYYY-MM-DD`: ten characters, digits around two dashes. */
  lemma IsoDayShape(d: int)
    requires FourDigitYear(d)
    ensures |IsoDay(d)| == 10
    ensures IsoDay(d)[4] == '-' && IsoDay(d)[7] == '-'
    ensures forall i :: 0 <= i < 10 && i != 4 && i != 7 ==> IsDigit(IsoDay(d)[i])
  {
    var c := CivilOf(d);
    DateFields(c.year, c.month, c.day);
    IsoTextShape(YearField(c.year), Field2(c.month), Field2(c.day));
  }

  lemma IsoTextShape(y: string, m: string, e: string)
    requires |y| == 4 && |m| == 2 && |e| == 2 && AllDigits(y) && AllDigits(m) && AllDigits(e)
    ensures var s := y + ("-" + (m + ("-" + e)));
      && |s| == 10 && s[4] == '-' && s[7] == '-'
      && forall i :: 0 <= i < 10 && i != 4 && i != 7 ==> IsDigit(s[i])
  {
    var s := y + ("-" + (m + ("-" + e)));
    forall i | 0 <= i < 10 && i != 4 && i != 7
      ensures IsDigit(s[i])
    {
      if i < 4 { assert s[i] == y[i]; }
      else if i < 7 { assert s[i] == m[i - 5]; }
      else { assert s[i] == e[i - 8]; }
    }
  }

  /**
   Comparing two `formatDate` texts with `<` orders them as the days they name,
   for days in years 0000..9999: why sorting the ledger by its date strings
   sorts it chronologically.
   */
  lemma IsoDayOrder(d1: int, d2: int)
    requires FourDigitYear(d1) && FourDigitYear(d2)
    ensures LexLess(IsoDay(d1), IsoDay(d2)) <==> d1 < d2
  {
    CivilTextOrder(CivilOf(d1), CivilOf(d2));
    CivilOfOrder(d1, d2);
  }

  lemma CivilTextOrder(c1: Civil, c2: Civil)
    requires 0 <= c1.year <= 9999 && 0 <= c1.month < 100 && 0 <= c1.day < 100
    requires 0 <= c2.year <= 9999 && 0 <= c2.month < 100 && 0 <= c2.day < 100
    ensures LexLess(YearField(c1.year) + MonthDayField(c1.month, c1.day), YearField(c2.year) + MonthDayField(c2.month, c2.day))
      <==> CivilBefore(c1, c2)
  {
    DateFields(c1.year, c1.month, c1.day);
    DateFields(c2.year, c2.month, c2.day);
    IsoTextOrder(YearField(c1.year), Field2(c1.month), Field2(c1.day),
                 YearField(c2.year), Field2(c2.month), Field2(c2.day));
  }

  /** The three numeric fields of a four-digit-year date, and what they read back as. */
  lemma DateFields(y: int, m: nat, e: nat)
    requires 0 <= y <= 9999 && m < 100 && e < 100
    ensures |YearField(y)| == 4 && AllDigits(YearField(y)) && ParseDigits(YearField(y)) == y
    ensures |Field2(m)| == 2 && AllDigits(Field2(m)) && ParseDigits(Field2(m)) == m
    ensures |Field2(e)| == 2 && AllDigits(Field2(e)) && ParseDigits(Field2(e)) == e
  {
    FourDigitYearField(y);
    Field2Facts(m);
    Field2Facts(e);
  }

  /** `<` on two `YYYY-MM-DD` texts compares year, then month, then day numerically. */
  lemma {:induction false} IsoTextOrder(y1: string, m1: string, e1: string, y2: string, m2: string, e2: string)
    requires |y1| == |y2| == 4 && |m1| == |m2| == 2 && |e1| == |e2| == 2
    requires AllDigits(y1) && AllDigits(y2) && AllDigits(m1) && AllDigits(m2)
    requires AllDigits(e1) && AllDigits(e2)
    ensures LexLess(y1 + ("-" + (m1 + ("-" + e1))), y2 + ("-" + (m2 + ("-" + e2))))
      <==> (ParseDigits(y1) < ParseDigits(y2)
            || (ParseDigits(y1) == ParseDigits(y2)
                && (ParseDigits(m1) < ParseDigits(m2)
                    || (ParseDigits(m1) == ParseDigits(m2) && ParseDigits(e1) < ParseDigits(e2)))))
  {
    MonthDayOrder(m1, e1, m2, e2);
    FieldPairOrder(y1, m1 + ("-" + e1), y2, m2 + ("-" + e2));
  }

  /** `<` on two `MM-DD` texts compares month, then day numerically. */
  lemma MonthDayOrder(m1: string, e1: string, m2: string, e2: string)
    requires |m1| == |m2| == 2 && |e1| == |e2| == 2
    requires AllDigits(m1) && AllDigits(m2) && AllDigits(e1) && AllDigits(e2)
    ensures LexLess(m1 + ("-" + e1), m2 + ("-" + e2))
      <==> (ParseDigits(m1) < ParseDigits(m2)
            || (ParseDigits(m1) == ParseDigits(m2) && ParseDigits(e1) < ParseDigits(e2)))
  {
    FieldPairOrder(m1, e1, m2, e2);
    DigitStringOrder(e1, e2);
  }

  /** A fixed-width number field, a dash, then a tail: the number decides unless equal. */
  lemma FieldPairOrder(a1: string, r1: string, a2: string, r2: string)
    requires |a1| == |a2| && AllDigits(a1) && AllDigits(a2)
    ensures LexLess(a1 + ("-" + r1), a2 + ("-" + r2))
      <==> ParseDigits(a1) < ParseDigits(a2)
           || (ParseDigits(a1) == ParseDigits(a2) && LexLess(r1, r2))
  {
    LexLessConcat(a1, "-" + r1, a2, "-" + r2);
    DigitStringOrder(a1, a2);
    LexLessDash(r1, r2);
  }

  lemma LexLessDash(a: string, b: string)
    ensures LexLess("-" + a, "-" + b) <==> LexLess(a, b)
  {
    assert ("-" + a)[1..] == a && ("-" + b)[1..] == b;
  }

  /** Re-reading a formatted day and formatting its midnight again changes nothing. */
  lemma FormatDateIdempotent(t: Instant)
    ensures FormatDate(UtcDay(t) * MsPerDay) == FormatDate(t)
  {
    assert UtcDay(UtcDay(t) * MsPerDay) == UtcDay(t);
  }

  /** `isSameDay(a, b)`: equal local year, month and day-of-month. */
  function IsSameDay(a: Instant, b: Instant, offset: int): (same: bool)
    ensures same <==> LocalDay(a, offset) == LocalDay(b, offset)
  {
    var ca, cb := CivilOf(LocalDay(a, offset)), CivilOf(LocalDay(b, offset));
    ca.year == cb.year && ca.month == cb.month && ca.day == cb.day
  }

  /** In UTC, `isSameDay` and equality of `formatDate` texts agree. */
  lemma SameDayIffSameIsoText(a: Instant, b: Instant)
    ensures IsSameDay(a, b, 0) <==> FormatDate(a) == FormatDate(b)
  {
    IsoDayInjective(UtcDay(a), UtcDay(b));
  }

  /**
   `getLastNDates(n)`: `n` instants, oldest first, the last being `now`, each
   one local calendar day after the previous; none when `n <= 0`.
   */
  method GetLastNDates(n: int, now: Instant, offset: int) returns (dates: seq<Instant>)
    ensures |dates| == if n > 0 then n else 0
    ensures forall k :: 0 <= k < |dates| ==> LocalDay(dates[k], offset) == LocalDay(now, offset) - (|dates| - 1 - k)
    ensures forall k :: 0 < k < |dates| ==> LocalDay(dates[k], offset) == LocalDay(dates[k - 1], offset) + 1
    ensures n > 0 ==> dates[|dates| - 1] == now
  {
    dates := [];
    var i := n - 1;
    while i >= 0
      invariant n > 0 ==> -1 <= i
      invariant n <= 0 ==> i == n - 1
      invariant |dates| == n - 1 - i
      invariant forall k :: 0 <= k < |dates| ==> dates[k] == now - (n - 1 - k) * MsPerDay
    {
      dates := dates + [now - i * MsPerDay];
      i := i - 1;
    }
    forall k | 0 <= k < |dates|
      ensures LocalDay(dates[k], offset) == LocalDay(now, offset) - (|dates| - 1 - k)
    {
      assert dates[k] + offset == (now + offset) - (n - 1 - k) * MsPerDay;
      ShiftDays(now + offset, n - 1 - k);
    }
  }

  lemma ShiftDays(t: int, i: int)
    ensures (t - i * MsPerDay) / MsPerDay == t / MsPerDay - i
  {
  }

  const DayNames: seq<string> := ["Sun", "Mon", "Tue", "Wed", "Thu", "Fri", "Sat"]

  /** `date.getDay()` for a local day number: 1970-01-01 was a Thursday (4). */
  function Weekday(day: int): (w: int)
    ensures 0 <= w < 7
  {
    (day + 4) % 7
  }

  /** `getDayName(date)`: the short English name of the local weekday. */
  function GetDayName(t: Instant, offset: int): (name: string)
    ensures name in DayNames
    ensures |name| == 3
  {
    DayNames[Weekday(LocalDay(t, offset))]
  }

  /** Names follow Sun..Sat cyclically from one local day to the next and repeat weekly. */
  lemma DayNameCycle(t: Instant, offset: int)
    ensures GetDayName(t + MsPerDay, offset) == DayNames[(Weekday(LocalDay(t, offset)) + 1) % 7]
    ensures GetDayName(t + 7 * MsPerDay, offset) == GetDayName(t, offset)
  {
    var w := LocalDay(t, offset);
    assert LocalDay(t + MsPerDay, offset) == w + 1 by {
      LaterLocalDay(t, offset, 1);
    }
    assert LocalDay(t + 7 * MsPerDay, offset) == w + 7 by {
      LaterLocalDay(t, offset, 7);
    }
    assert Weekday(w + 1) == (Weekday(w) + 1) % 7;
    assert Weekday(w + 7) == Weekday(w);
  }

  /** `k` whole days later is `k` local days later. */
  lemma LaterLocalDay(t: Instant, offset: int, k: int)
    ensures LocalDay(t + k * MsPerDay, offset) == LocalDay(t, offset) + k
  {
    ShiftDays(t + k * MsPerDay + offset, k);
  }

  /** The weekday names agree with the calendar: 1970-01-01 was a Thursday, 2024-01-01 a Monday. */
  lemma DayNameAnchors()
    ensures DayNames[Weekday(DayNumber(Civil(1970, 1, 1)))] == "Thu"
    ensures DayNames[Weekday(DayNumber(Civil(2024, 1, 1)))] == "Mon"
  {
  }

}

=== FILE: digits.dfy ===
/**
 Decimal text as JavaScript produces it: `Number.prototype.toString` on integers,
 `String.prototype.padStart(width, '0')`, and the `<` order on strings. The
 parser `ParseDigits` is the partner every formatter is checked against.
 */
module Digits {

  predicate IsDigit(c: char) {
    '0' <= c <= '9'
  }

  predicate AllDigits(s: string) {
    forall i :: 0 <= i < |s| ==> IsDigit(s[i])
  }

  function DigitValue(c: char): (v: nat)
    requires IsDigit(c)
    ensures v < 10
  {
    c as int - '0' as int
  }

  function DigitChar(d: nat): (c: char)
    requires d < 10
    ensures IsDigit(c) && DigitValue(c) == d
  {
    ('0' as int + d) as char
  }

  function Pow10(w: nat): (p: nat)
    ensures p >= 1
  {
    if w == 0 then 1 else 10 * Pow10(w - 1)
  }

  lemma Pow10Values()
    ensures Pow10(2) == 100 && Pow10(4) == 10_000 && Pow10(6) == 1_000_000
  {
    assert Pow10(1) == 10;
    assert Pow10(2) == 100;
    assert Pow10(3) == 1000;
    assert Pow10(4) == 10_000;
    assert Pow10(5) == 100_000;
  }

  /** Decimal text of a non-negative integer, no leading zeros. */
  function NatToString(n: nat): (s: string)
    ensures 1 <= |s| && AllDigits(s)
    ensures n < 10 <==> |s| == 1
    decreases n
  {
    if n < 10 then [DigitChar(n)] else NatToString(n / 10) + [DigitChar(n % 10)]
  }

  /** `String(i)` for an integer `i`: a minus sign before the magnitude's digits. */
  function IntToString(i: int): (s: string)
    ensures 1 <= |s|
    ensures i >= 0 ==> s == NatToString(i)
    ensures i < 0 <==> s[0] == '-'
  {
    if i < 0 then "-" + NatToString(-i) else NatToString(i)
  }

  /** A negative number's text is a minus sign and then its magnitude's digits. */
  lemma NegativeText(i: int)
    requires i < 0
    ensures IntToString(i) == "-" + NatToString(-i)
  {
  }

  /** The value of a string of decimal digits; leading zeros are harmless. */
  function ParseDigits(s: string): nat
    requires AllDigits(s)
  {
    if |s| == 0 then 0 else 10 * ParseDigits(s[..|s| - 1]) + DigitValue(s[|s| - 1])
  }

  function Zeros(k: nat): (z: string)
    ensures |z| == k && AllDigits(z)
    ensures forall i :: 0 <= i < k ==> z[i] == '0'
  {
    seq(k, _ => '0')
  }

  /** `s.padStart(width, '0')`: left-fill with zeros up to `width`, never truncate. */
  function PadStart(s: string, width: nat): (r: string)
    ensures |r| == if |s| >= width then |s| else width
    ensures r[|r| - |s|..] == s
  {
    if |s| >= width then s else Zeros(width - |s|) + s
  }

  /** What `PadStart` puts in front of the text is zeros only. */
  lemma PadStartFill(s: string, width: nat, i: int)
    requires 0 <= i < |PadStart(s, width)| - |s|
    ensures PadStart(s, width)[i] == '0'
  {
  }

  /** JavaScript's `<` on strings: the first differing code unit decides, a proper prefix is smaller. */
  predicate LexLess(a: string, b: string)
    decreases |a|
  {
    if |a| == 0 then |b| > 0
    else |b| > 0 && (if a[0] != b[0] then a[0] < b[0] else LexLess(a[1..], b[1..]))
  }

  lemma {:induction false} ParseNatToString(n: nat)
    ensures ParseDigits(NatToString(n)) == n
    decreases n
  {
    if n >= 10 {
      var s := NatToString(n);
      assert s[..|s| - 1] == NatToString(n / 10);
      ParseNatToString(n / 10);
    }
  }

  /** `s` is a non-empty digit string whose value is `n`. */
  predicate ReadsAs(s: string, n: int) {
    |s| > 0 && AllDigits(s) && ParseDigits(s) == n
  }

  /** A number's decimal text reads back as that number. */
  lemma NatToStringReads(n: nat)
    ensures ReadsAs(NatToString(n), n)
  {
    ParseNatToString(n);
  }

  lemma {:induction false} NatToStringShort(n: nat, w: nat)
    requires 1 <= w && n < Pow10(w)
    ensures |NatToString(n)| <= w
    decreases w
  {
    if n >= 10 {
      assert Pow10(1) == 10;
      NatToStringShort(n / 10, w - 1);
    }
  }

  lemma {:induction false} ParseZeros(k: nat)
    ensures ParseDigits(Zeros(k)) == 0
  {
    if k > 0 {
      assert Zeros(k)[..k - 1] == Zeros(k - 1);
      ParseZeros(k - 1);
    }
  }

  lemma {:induction false} ParseLeadingZeros(k: nat, s: string)
    requires AllDigits(s)
    ensures AllDigits(Zeros(k) + s)
    ensures ParseDigits(Zeros(k) + s) == ParseDigits(s)
    decreases |s|
  {
    var t := Zeros(k) + s;
    if |s| == 0 {
      assert t == Zeros(k);
      ParseZeros(k);
    } else {
      assert t[..|t| - 1] == Zeros(k) + s[..|s| - 1];
      ParseLeadingZeros(k, s[..|s| - 1]);
    }
  }

  /** Zero-padding a number's digits keeps a digit string with the same value. */
  lemma PadStartDigits(n: nat, width: nat)
    ensures AllDigits(PadStart(NatToString(n), width))
    ensures ParseDigits(PadStart(NatToString(n), width)) == n
  {
    var s := NatToString(n);
    ParseNatToString(n);
    if |s| < width {
      assert PadStart(s, width) == Zeros(width - |s|) + s;
      ParseLeadingZeros(width - |s|, s);
    }
  }

  /** A padded number fits its width exactly when it is below 10^width. */
  lemma PadStartWidth(n: nat, width: nat)
    requires 1 <= width && n < Pow10(width)
    ensures |PadStart(NatToString(n), width)| == width
  {
    NatToStringShort(n, width);
  }

  /** Comparing strings that share a same-length head: the heads decide unless equal. */
  lemma {:induction false} LexLessConcat(a: string, b: string, c: string, d: string)
    requires |a| == |c|
    ensures LexLess(a + b, c + d) <==> LexLess(a, c) || (a == c && LexLess(b, d))
    decreases |a|
  {
    if |a| == 0 {
      assert a + b == b && c + d == d;
    } else {
      assert (a + b)[0] == a[0] && (c + d)[0] == c[0];
      assert (a + b)[1..] == a[1..] + b && (c + d)[1..] == c[1..] + d;
      LexLessConcat(a[1..], b, c[1..], d);
      if a[0] == c[0] {
        assert a == c <==> a[1..] == c[1..] by {
          if a[1..] == c[1..] { assert a == [a[0]] + a[1..] && c == [c[0]] + c[1..]; }
        }
      }
    }
  }

  /**
   For digit strings of one length, string order is numeric order and string
   equality is numeric equality: the reason zero-padded fields sort correctly.
   */
  lemma {:induction false} DigitStringOrder(s: string, t: string)
    requires |s| == |t| && AllDigits(s) && AllDigits(t)
    ensures LexLess(s, t) <==> ParseDigits(s) < ParseDigits(t)
    ensures s == t <==> ParseDigits(s) == ParseDigits(t)
    decreases |s|
  {
    if |s| > 0 {
      var n := |s| - 1;
      var p, q := s[..n], t[..n];
      assert s == p + [s[n]] && t == q + [t[n]];
      DigitStringOrder(p, q);
      LexLessConcat(p, [s[n]], q, [t[n]]);
      assert LexLess([s[n]], [t[n]]) <==> s[n] < t[n] by {
        assert [s[n]][1..] == [] && [t[n]][1..] == [];
      }
      assert s[n] < t[n] <==> DigitValue(s[n]) < DigitValue(t[n]);
      assert s[n] == t[n] <==> DigitValue(s[n]) == DigitValue(t[n]);
    }
  }


  /** JavaScript's `a % b`: the remainder takes the sign of `a` (truncating division). */
  function JsRem(a: int, b: int): (r: int)
    requires b > 0
    ensures a >= 0 ==> r == a % b
    ensures a < 0 ==> r <= 0 && (a - r) % b == 0
    ensures -b < r < b
  {
    if a >= 0 then a % b else
      var q := (-a) / b;
      assert a - -((-a) % b) == b * -q;
      MultipleMod(-q, b);
      -((-a) % b)
  }

  /** A multiple of `b` leaves no remainder. */
  lemma MultipleMod(k: int, b: int)
    requires b > 0
    ensures (b * k) % b == 0
  {
    var x := b * k;
    var q, r := x / b, x % b;
    assert b * (k - q) == r;
    if k - q >= 1 {
      assert false;
    } else if k - q <= -1 {
      assert false;
    }
  }

  /** The first position of `c`, or -1 (`IndexOfFirst`), for the model's readers of formatted text. */
  function IndexOf(s: string, c: char): (k: int)
    ensures -1 <= k < |s|
    ensures k >= 0 ==> s[k] == c
  {
    IndexFrom(s, c, 0)
  }

  /** The first position of `c` at or after `i`, or -1. */
  function IndexFrom(s: string, c: char, i: nat): (k: int)
    ensures -1 <= k < |s|
    ensures k >= 0 ==> i <= k && s[k] == c
    decreases |s| - i
  {
    if i >= |s| then -1 else if s[i] == c then i else IndexFrom(s, c, i + 1)
  }

  /** The search from `i` skips only positions that do not hold `c`, and fails only when none does. */
  lemma {:induction false} IndexFromFirst(s: string, c: char, i: nat)
    ensures forall j :: i <= j < |s| && (IndexFrom(s, c, i) < 0 || j < IndexFrom(s, c, i)) ==> s[j] != c
    decreases |s| - i
  {
    if i < |s| && s[i] != c {
      IndexFromFirst(s, c, i + 1);
    }
  }

  /**
   `IndexOf` finds `c` exactly when `c` occurs, and then at its first
   occurrence: no earlier position holds `c`.
   */
  lemma IndexOfFirst(s: string, c: char)
    ensures IndexOf(s, c) >= 0 <==> c in s
    ensures forall j :: 0 <= j < |s| && (IndexOf(s, c) < 0 || j < IndexOf(s, c)) ==> s[j] != c
  {
    IndexFromFirst(s, c, 0);
  }

  /** In `a + [c] + b` with no `c` inside `a`, the first `c` is the one after `a`. */
  lemma IndexOfJoin(a: string, c: char, b: string)
    requires c !in a
    ensures IndexOf(a + [c] + b, c) == |a|
  {
    var t := a + [c] + b;
    IndexOfFirst(t, c);
    assert t[|a|] == c;
    assert forall j :: 0 <= j < |a| ==> t[j] == a[j];
  }

  lemma DigitsHaveNo(s: string, c: char)
    requires AllDigits(s) && !IsDigit(c)
    ensures c !in s
  {
  }
}

=== FILE: ledger.dfy ===
/**
 The session ledger kept by `utils/storage.js`: a list of (date, duration)
 records under one storage key. A record's date is the `YYYY-MM-DD` text
 `formatDate` produced; here it is held as the day number that text names,
 which loses nothing because `Dates.IsoDayInjective` makes text equality and
 day equality the same thing (`FindIndexByText` below shows the lookup agrees).
 Durations are seconds.
 */
module Ledger {
  import opened Dates

  datatype Record = Record(day: int, duration: int)

  /**
   What the storage key holds: nothing (or an empty string), text that reads
   back as a list of records, or something `getItem`/`JSON.parse` fails on.
   */
  datatype Store = Missing | Holding(records: seq<Record>) | Unreadable

  /** `loadSessions()`: the stored list, or an empty list when there is none or it cannot be read. */
  function LoadSessions(st: Store): (records: seq<Record>)
    ensures st.Holding? ==> records == st.records
    ensures !st.Holding? ==> records == []
  {
    match st
    case Holding(records) => records
    case _ => []
  }

  /**
   `saveSessions(records)`: overwrites the key with the list; a failed write
   is swallowed and leaves the store as it was.
   */
  function SaveSessions(st: Store, records: seq<Record>, writeOk: bool): (st': Store)
    ensures writeOk ==> st' == Holding(records)
    ensures !writeOk ==> st' == st
  {
    if writeOk then Holding(records) else st
  }

  /** A successful save is read back unchanged by the next load. */
  lemma SaveLoadRoundTrip(st: Store, records: seq<Record>)
    ensures LoadSessions(SaveSessions(st, records, true)) == records
  {
  }

  /** `findIndex((s) => s.date === iso)`: the first record of `day`, or -1. */
  function FindIndex(s: seq<Record>, day: int): (k: int)
    ensures -1 <= k < |s|
    ensures k >= 0 ==> s[k].day == day && forall j :: 0 <= j < k ==> s[j].day != day
    ensures k == -1 <==> forall j :: 0 <= j < |s| ==> s[j].day != day
  {
    if |s| == 0 then -1
    else if s[0].day == day then 0
    else
      var k := FindIndex(s[1..], day);
      if k < 0 then -1 else k + 1
  }

  /** Any position holding the first record of `day` is the one `FindIndex` reports. */
  lemma FindIndexIsFirst(s: seq<Record>, day: int, k: int)
    requires 0 <= k < |s| && s[k].day == day
    requires forall j :: 0 <= j < k ==> s[j].day != day
    ensures FindIndex(s, day) == k
  {
  }

  /** The same search as the source writes it, on the stored date texts. */
  function FindIndexByText(s: seq<Record>, iso: string): int {
    if |s| == 0 then -1
    else if IsoDay(s[0].day) == iso then 0
    else
      var k := FindIndexByText(s[1..], iso);
      if k < 0 then -1 else k + 1
  }

  /** Searching the texts for `formatDate`'s text of a day finds what searching the day numbers finds. */
  lemma {:induction false} FindIndexByTextAgrees(s: seq<Record>, day: int)
    ensures FindIndexByText(s, IsoDay(day)) == FindIndex(s, day)
  {
    if |s| > 0 {
      IsoDayInjective(s[0].day, day);
      FindIndexByTextAgrees(s[1..], day);
    }
  }

  /**
   The core of `appendSession`: add `duration` to the first record of `day`
   if there is one, otherwise append a new record for that day.
   */
  function Merge(s: seq<Record>, day: int, duration: int): (s': seq<Record>)
    ensures |s| <= |s'| <= |s| + 1
    ensures forall i :: 0 <= i < |s| ==> s'[i].day == s[i].day
  {
    var k := FindIndex(s, day);
    if k >= 0 then s[k := Record(day, s[k].duration + duration)]
    else s + [Record(day, duration)]
  }

  /**
   `appendSession(date, duration)`: load, merge on the UTC day of `date`,
   save, and return the merged list. The list is returned even when the save
   fails; an unreadable store is treated as empty and then overwritten.
   */
  function AppendSession(st: Store, date: Instant, duration: int, writeOk: bool): (result: (Store, seq<Record>))
    ensures result.1 == Merge(LoadSessions(st), UtcDay(date), duration)
    ensures writeOk ==> LoadSessions(result.0) == result.1
    ensures !writeOk ==> result.0 == st
  {
    var merged := Merge(LoadSessions(st), UtcDay(date), duration);
    (SaveSessions(st, merged, writeOk), merged)
  }

  /** Total seconds recorded for `day`, over every record of that day. */
  function DayTotal(s: seq<Record>, day: int): int {
    if |s| == 0 then 0
    else (if s[0].day == day then s[0].duration else 0) + DayTotal(s[1..], day)
  }

  /** Number of records of `day`. */
  function CountOn(s: seq<Record>, day: int): nat {
    if |s| == 0 then 0
    else (if s[0].day == day then 1 else 0) + CountOn(s[1..], day)
  }

  function Days(s: seq<Record>): set<int> {
    set r | r in s :: r.day
  }

  /** `sessions.some((s) => s.date === iso)` holds exactly when the search finds a record. */
  lemma FindIndexDays(s: seq<Record>, day: int)
    ensures FindIndex(s, day) >= 0 <==> day in Days(s)
  {
    var k := FindIndex(s, day);
    if k >= 0 {
      assert s[k] in s;
    }
    if day in Days(s) {
      var r :| r in s && r.day == day;
      var i :| 0 <= i < |s| && s[i] == r;
      assert s[i].day == day;
    }
  }

  /**
   Where a merge puts the duration: into the first record of an existing day,
   every other record unchanged, or onto the end as a new record.
   */
  lemma MergePositions(s: seq<Record>, day: int, duration: int)
    ensures day in Days(s) ==>
      var k := FindIndex(s, day);
      0 <= k < |s| && |Merge(s, day, duration)| == |s|
      && Merge(s, day, duration)[k] == Record(day, s[k].duration + duration)
      && forall i :: 0 <= i < |s| && i != k ==> Merge(s, day, duration)[i] == s[i]
    ensures day !in Days(s) ==> Merge(s, day, duration) == s + [Record(day, duration)]
  {
    FindIndexDays(s, day);
  }

  /** At most one record per day: the shape `appendSession` keeps. */
  predicate UniqueDays(s: seq<Record>) {
    forall i, j :: 0 <= i < j < |s| ==> s[i].day != s[j].day
  }

  lemma {:induction false} DayTotalAppend(s: seq<Record>, r: Record, day: int)
    ensures DayTotal(s + [r], day) == DayTotal(s, day) + (if r.day == day then r.duration else 0)
    ensures CountOn(s + [r], day) == CountOn(s, day) + (if r.day == day then 1 else 0)
  {
    if |s| > 0 {
      assert (s + [r])[1..] == s[1..] + [r];
      DayTotalAppend(s[1..], r, day);
    }
  }

  lemma {:induction false} DayTotalUpdate(s: seq<Record>, k: int, r: Record, day: int)
    requires 0 <= k < |s|
    ensures DayTotal(s[k := r], day)
      == DayTotal(s, day) - (if s[k].day == day then s[k].duration else 0) + (if r.day == day then r.duration else 0)
    ensures CountOn(s[k := r], day)
      == CountOn(s, day) - (if s[k].day == day then 1 else 0) + (if r.day == day then 1 else 0)
  {
    if k > 0 {
      assert s[k := r][1..] == s[1..][k - 1 := r];
      DayTotalUpdate(s[1..], k - 1, r, day);
    } else {
      assert s[k := r][1..] == s[1..];
    }
  }

  lemma {:induction false} CountOnZero(s: seq<Record>, day: int)
    ensures CountOn(s, day) == 0 <==> FindIndex(s, day) == -1
    ensures CountOn(s, day) == 0 ==> DayTotal(s, day) == 0
  {
    if |s| > 0 {
      CountOnZero(s[1..], day);
    }
  }

  /**
   Merging adds exactly `duration` to the day's total, leaves every other
   day's total and count alone, and gives the day a record if it had none.
   */
  lemma MergeTotals(s: seq<Record>, day: int, duration: int, other: int)
    requires other != day
    ensures DayTotal(Merge(s, day, duration), day) == DayTotal(s, day) + duration
    ensures CountOn(Merge(s, day, duration), day) == if CountOn(s, day) == 0 then 1 else CountOn(s, day)
    ensures DayTotal(Merge(s, day, duration), other) == DayTotal(s, other)
    ensures CountOn(Merge(s, day, duration), other) == CountOn(s, other)
  {
    var k := FindIndex(s, day);
    CountOnZero(s, day);
    if k >= 0 {
      DayTotalUpdate(s, k, Record(day, s[k].duration + duration), day);
      DayTotalUpdate(s, k, Record(day, s[k].duration + duration), other);
    } else {
      DayTotalAppend(s, Record(day, duration), day);
      DayTotalAppend(s, Record(day, duration), other);
    }
  }

  /** Merging grows the list only for a new day, and the days present gain exactly `day`. */
  lemma MergeShape(s: seq<Record>, day: int, duration: int)
    ensures |Merge(s, day, duration)| == if day in Days(s) then |s| else |s| + 1
    ensures Days(Merge(s, day, duration)) == Days(s) + {day}
  {
    var k := FindIndex(s, day);
    var s' := Merge(s, day, duration);
    if k >= 0 {
      assert s[k] in s;
      forall e | e in Days(s) + {day} ensures e in Days(s') {
        if e != day {
          var i :| 0 <= i < |s| && s[i].day == e;
          assert s'[i] == s[i];
        } else {
          assert s'[k].day == day;
        }
      }
      forall e | e in Days(s') ensures e in Days(s) + {day} {
        var i :| 0 <= i < |s'| && s'[i].day == e;
        if i != k { assert s'[i] == s[i]; }
      }
    } else {
      assert day !in Days(s);
      assert s'[|s|].day == day;
      forall e | e in Days(s) ensures e in Days(s') {
        var i :| 0 <= i < |s| && s[i].day == e;
        assert s'[i] == s[i];
      }
      forall e | e in Days(s') ensures e in Days(s) + {day} {
        var i :| 0 <= i < |s'| && s'[i].day == e;
        if i < |s| { assert s'[i] == s[i]; }
      }
    }
  }

  /** Merging keeps the ledger at one record per day. */
  lemma MergeKeepsUniqueDays(s: seq<Record>, day: int, duration: int)
    requires UniqueDays(s)
    ensures UniqueDays(Merge(s, day, duration))
  {
  }

  /** On a one-record-per-day ledger, the day's only record holds its whole total. */
  lemma {:induction false} UniqueDayTotal(s: seq<Record>, day: int)
    requires UniqueDays(s)
    ensures CountOn(s, day) <= 1
    ensures FindIndex(s, day) >= 0 ==> DayTotal(s, day) == s[FindIndex(s, day)].duration
  {
    if |s| > 0 {
      UniqueDayTotal(s[1..], day);
      if s[0].day == day {
        CountOnZero(s[1..], day);
      }
    }
  }

  /** Two sessions on one day land where one session of their summed length would. */
  lemma MergeSameDay(s: seq<Record>, day: int, a: int, b: int)
    ensures Merge(Merge(s, day, a), day, b) == Merge(s, day, a + b)
  {
    var k := FindIndex(s, day);
    if k < 0 {
      FindIndexIsFirst(s + [Record(day, a)], day, |s|);
    } else {
      FindIndexIsFirst(Merge(s, day, a), day, k);
    }
  }

  /** Sessions on different days may be merged in either order without changing any day's totals. */
  lemma MergeCommutesOnTotals(s: seq<Record>, d1: int, x: int, d2: int, y: int, day: int)
    ensures DayTotal(Merge(Merge(s, d1, x), d2, y), day) == DayTotal(Merge(Merge(s, d2, y), d1, x), day)
    ensures CountOn(Merge(Merge(s, d1, x), d2, y), day) == CountOn(Merge(Merge(s, d2, y), d1, x), day)
  {
    if d1 == d2 {
      MergeSameDay(s, d1, x, y);
      MergeSameDay(s, d1, y, x);
    } else {
      MergeAny(s, d1, x, day);
      MergeAny(Merge(s, d1, x), d2, y, day);
      MergeAny(s, d2, y, day);
      MergeAny(Merge(s, d2, y), d1, x, day);
    }
  }

  /** `MergeTotals` for any queried day, the merged one or not. */
  lemma MergeAny(s: seq<Record>, day: int, duration: int, q: int)
    ensures DayTotal(Merge(s, day, duration), q) == DayTotal(s, q) + (if q == day then duration else 0)
    ensures CountOn(Merge(s, day, duration), q)
      == if q == day && CountOn(s, day) == 0 then 1 else CountOn(s, q)
  {
    MergeTotals(s, day, duration, if q == day then day + 1 else q);
  }

  /** Appending to an unreadable store discards whatever was there: the new list has one record. */
  lemma AppendOverUnreadable(date: Instant, duration: int)
    ensures AppendSession(Unreadable, date, duration, true).0 == Holding([Record(UtcDay(date), duration)])
  {
  }

  /** Two appends one minute apart on one day: one record holding both durations. */
  lemma AppendTwiceExample()
    ensures var (st1, _) := AppendSession(Missing, 0, 300, true);
            var (st2, r) := AppendSession(st1, 60_000, 200, true);
            r == [Record(0, 500)] && st2 == Holding(r)
  {
    assert UtcDay(60_000) == 0;
  }
}

=== FILE: metrics.dfy ===
/**
 `computeMetrics(sessions)`: today's total and session count, the current
 streak and the longest streak. "Today" is the UTC day of the clock reading,
 which is a parameter here; every date comparison is on day numbers, which
 is what comparing `formatDate` texts amounts to (`Dates.IsoDayInjective`,
 `Dates.IsoDayOrder`).
 */
module Metrics {
  import opened Dates
  import opened Ledger
  import opened Sorting
  import opened Streaks

  datatype Figures = Figures(totalToday: int, sessionsToday: nat, currentStreak: nat, longestStreak: nat)

  /** The four figures, computed the way the source computes them. */
  function MetricsOf(sessions: seq<Record>, today: int): (m: Figures)
    ensures m.currentStreak <= |sessions| && m.longestStreak <= |sessions|
    ensures |sessions| == 0 ==> m == Figures(0, 0, 0, 0)
  {
    var sorted := SortByDay(sessions);
    var ds := DaysOf(sorted);
    Figures(
      DayTotal(sorted, today),
      CountOn(sorted, today),
      if FindIndex(sessions, today) >= 0 then 1 + Walk(SortDescending(ds)) else 0,
      Longest(ds))
  }

  /** Every day of `[start, start + len)` has a session. */
  predicate RunOfDays(s: seq<Record>, start: int, len: int) {
    forall d :: start <= d < start + len ==> d in Days(s)
  }

  /** The run of consecutive session days ending at `top` is exactly `len` days long. */
  predicate RunEndsAt(s: seq<Record>, top: int, len: int) {
    RunOfDays(s, top - len + 1, len) && top - len !in Days(s)
  }

  /**
   `computeMetrics` step by step: sort, sum today's sessions, scan oldest
   first for the longest run, then, if any session is dated today, walk the
   days newest first for the current run.
   */
  method ComputeMetrics(sessions: seq<Record>, now: Instant) returns (m: Figures)
    ensures m == MetricsOf(sessions, UtcDay(now))
  {
    var today := UtcDay(now);
    var sorted := SortByDay(sessions);
    var totalToday, sessionsToday := TodayScan(sorted, today);
    var ds := DaysOf(sorted);
    var longest := LongestScan(ds);
    var currentStreak := 0;
    if FindIndex(sessions, today) >= 0 {
      currentStreak := CurrentScan(SortDescending(ds));
    }
    m := Figures(totalToday, sessionsToday, currentStreak, longest);
  }

  /** The first loop: the duration and number of the records dated `today`. */
  method TodayScan(sorted: seq<Record>, today: int) returns (totalToday: int, sessionsToday: nat)
    ensures totalToday == DayTotal(sorted, today)
    ensures sessionsToday == CountOn(sorted, today)
  {
    totalToday, sessionsToday := 0, 0;
    var i := 0;
    while i < |sorted|
      invariant 0 <= i <= |sorted|
      invariant totalToday == DayTotal(sorted[..i], today)
      invariant sessionsToday == CountOn(sorted[..i], today)
    {
      if sorted[i].day == today {
        totalToday := totalToday + sorted[i].duration;
        sessionsToday := sessionsToday + 1;
      }
      DayTotalAppend(sorted[..i], sorted[i], today);
      assert sorted[..i + 1] == sorted[..i] + [sorted[i]];
      i := i + 1;
    }
    assert sorted[..i] == sorted;
  }

  /** The oldest-first loop: `current` and `longest` as the scan leaves them. */
  method LongestScan(ds: seq<int>) returns (longest: nat)
    ensures longest == Longest(ds)
  {
    var current := 0;
    longest := 0;
    var i := 0;
    while i < |ds|
      invariant 0 <= i <= |ds|
      invariant current == RunEnd(ds[..i]) && longest == Longest(ds[..i])
    {
      if i == 0 {
        current := 1;
      } else {
        var diffDays := ds[i] - ds[i - 1];
        if diffDays == 1 {
          current := current + 1;
        } else if diffDays > 1 {
          current := 1;
        }
      }
      if current > longest {
        longest := current;
      }
      assert ds[..i + 1][..i] == ds[..i];
      i := i + 1;
    }
    assert ds[..i] == ds;
  }

  /** The newest-first loop, entered once a session today is found: today counts, then each day one earlier. */
  method CurrentScan(days: seq<int>) returns (currentStreak: nat)
    ensures currentStreak == 1 + Walk(days)
  {
    currentStreak := 1;
    var k := 1;
    while k < |days|
      invariant 1 <= k && k - 1 <= |days|
      invariant currentStreak == k
      invariant Walk(days) == k - 1 + Walk(days[k - 1..])
    {
      if days[k] - days[k - 1] == -1 {
        assert days[k - 1..][1..] == days[k..];
        currentStreak := currentStreak + 1;
        k := k + 1;
      } else {
        break;
      }
    }
  }

  /** Today's figures are the day's total and record count over the whole list. */
  lemma TodayFigures(s: seq<Record>, today: int)
    ensures MetricsOf(s, today).totalToday == DayTotal(s, today)
    ensures MetricsOf(s, today).sessionsToday == CountOn(s, today)
  {
    SortKeepsTotals(s, today);
  }

  /** The sorted days are ascending and hold exactly the list's days. */
  lemma SortedDayFacts(s: seq<Record>)
    ensures Ascending(DaysOf(SortByDay(s)))
    ensures |DaysOf(SortByDay(s))| == |s|
    ensures forall d :: d in DaysOf(SortByDay(s)) <==> d in Days(s)
  {
    var t := SortByDay(s);
    SortedDays(t);
    forall d ensures d in DaysOf(t) <==> d in Days(s) {
      DaysOfMembers(t, d);
      SortKeepsDays(s, d);
    }
  }

  /**
   The longest streak is the length of the longest run of consecutive days
   that have sessions: some run that long exists, none longer does, and it
   is 0 only for an empty list.
   */
  lemma LongestStreakIsLongestRun(s: seq<Record>, today: int)
    ensures var l := MetricsOf(s, today).longestStreak;
      && (l == 0 <==> |s| == 0)
      && l <= |s|
      && (|s| > 0 ==> exists start :: RunOfDays(s, start, l))
      && (forall start, k :: k > l ==> !RunOfDays(s, start, k))
  {
    var ds := DaysOf(SortByDay(s));
    SortedDayFacts(s);
    LongestIsLongestRun(ds);
    var l := Longest(ds);
    if |s| > 0 {
      var start :| RunIn(ds, start, l);
      assert RunOfDays(s, start, l);
    }
    forall start, k | k > l
      ensures !RunOfDays(s, start, k)
    {
      if RunOfDays(s, start, k) {
        assert RunIn(ds, start, k);
      }
    }
  }

  /** The current streak is 0 exactly when no session is dated today, and never exceeds the list. */
  lemma CurrentStreakZero(s: seq<Record>, today: int)
    ensures MetricsOf(s, today).currentStreak == 0 <==> today !in Days(s)
    ensures MetricsOf(s, today).currentStreak <= |s|
  {
    FindIndexDays(s, today);
  }

  /** Newest first, the days are the list's days; without repeated days they are repeat-free. */
  lemma NewestFirstFacts(s: seq<Record>)
    ensures var desc := SortDescending(DaysOf(SortByDay(s)));
      && Descending(desc)
      && |desc| == |s|
      && (forall d :: d in desc <==> d in Days(s))
      && (UniqueDays(s) ==> Distinct(desc))
  {
    var ds := DaysOf(SortByDay(s));
    var desc := SortDescending(ds);
    SortedDayFacts(s);
    SortDescendingPermutes(ds);
    forall d ensures d in desc <==> d in Days(s) {
      assert d in desc <==> d in multiset(desc);
      assert d in ds <==> d in multiset(ds);
    }
    if UniqueDays(s) {
      SortKeepsUniqueDays(s);
      UniqueDaysDistinct(SortByDay(s));
      DistinctPermutation(ds, desc);
    }
  }

  /**
   With one record per day and a session today, the current streak is the
   run of consecutive days ending at the latest session day `top`: all those
   days have sessions and the day before the run has none. When no session
   lies after today, `top` is today itself (`CurrentStreakEndsToday`).
   */
  lemma CurrentStreakRun(s: seq<Record>, today: int, top: int)
    requires UniqueDays(s) && today in Days(s)
    requires top in Days(s) && forall d :: d in Days(s) ==> d <= top
    ensures RunEndsAt(s, top, MetricsOf(s, today).currentStreak)
  {
    var desc := SortDescending(DaysOf(SortByDay(s)));
    NewestFirstFacts(s);
    CurrentStreakValue(s, today);
    WalkFromTop(desc, s, top, MetricsOf(s, today).currentStreak);
  }

  lemma CurrentStreakValue(s: seq<Record>, today: int)
    requires today in Days(s)
    ensures MetricsOf(s, today).currentStreak == 1 + Walk(SortDescending(DaysOf(SortByDay(s))))
  {
    FindIndexDays(s, today);
  }

  /** `WalkRun` read on the list's days, for a newest-first arrangement of them starting at `top`. */
  lemma WalkFromTop(desc: seq<int>, s: seq<Record>, top: int, c: int)
    requires Descending(desc) && Distinct(desc) && |desc| > 0
    requires forall d :: d in desc <==> d in Days(s)
    requires top in Days(s) && forall d :: d in Days(s) ==> d <= top
    requires c == Walk(desc) + 1
    ensures RunEndsAt(s, top, c)
  {
    assert desc[0] in desc;
    assert top in desc;
    assert desc[0] == top;
    WalkRun(desc);
    var w := Walk(desc);
    forall d | top - w <= d < top - w + (w + 1)
      ensures d in Days(s)
    {
      assert d in desc;
    }
    assert top - c !in desc;
  }

  /** With no session dated after today, the current streak is the run of days ending today. */
  lemma CurrentStreakEndsToday(s: seq<Record>, today: int)
    requires UniqueDays(s) && today in Days(s)
    requires forall d :: d in Days(s) ==> d <= today
    ensures MetricsOf(s, today).currentStreak >= 1
    ensures RunEndsAt(s, today, MetricsOf(s, today).currentStreak)
  {
    CurrentStreakRun(s, today, today);
    CurrentStreakZero(s, today);
  }

  /** Recording today's work always gives a current streak of at least one and one session today. */
  lemma AfterRecordingToday(s: seq<Record>, today: int, duration: int)
    requires UniqueDays(s)
    ensures MetricsOf(Merge(s, today, duration), today).currentStreak >= 1
    ensures MetricsOf(Merge(s, today, duration), today).sessionsToday == 1
  {
    var s' := Merge(s, today, duration);
    MergeShape(s, today, duration);
    CurrentStreakZero(s', today);
    TodayFigures(s', today);
    MergeKeepsUniqueDays(s, today, duration);
    UniqueDayTotal(s', today);
    FindIndexDays(s', today);
    CountOnZero(s', today);
  }

  /** Three consecutive days of one work period each: 1500 s and one session today, streaks of 3. */
  lemma ThreeDayExample()
    ensures MetricsOf([Record(2, 1500), Record(0, 1500), Record(1, 1500)], 2) == Figures(1500, 1, 3, 3)
  {
    var s := [Record(2, 1500), Record(0, 1500), Record(1, 1500)];
    var sorted := [Record(0, 1500), Record(1, 1500), Record(2, 1500)];
    ThreeDaySorted();
    ThreeDayToday();
    ThreeDayStreaks();
  }

  lemma ThreeDayToday()
    ensures FindIndex([Record(2, 1500), Record(0, 1500), Record(1, 1500)], 2) >= 0
    ensures DaysOf([Record(0, 1500), Record(1, 1500), Record(2, 1500)]) == [0, 1, 2]
    ensures DayTotal([Record(0, 1500), Record(1, 1500), Record(2, 1500)], 2) == 1500
    ensures CountOn([Record(0, 1500), Record(1, 1500), Record(2, 1500)], 2) == 1
  {
    var s := [Record(2, 1500), Record(0, 1500), Record(1, 1500)];
    assert s[0].day == 2;
  }

  lemma ThreeDaySorted()
    ensures SortByDay([Record(2, 1500), Record(0, 1500), Record(1, 1500)])
         == [Record(0, 1500), Record(1, 1500), Record(2, 1500)]
  {
    var s := [Record(2, 1500), Record(0, 1500), Record(1, 1500)];
    assert SortByDay(s[2..]) == [Record(1, 1500)];
    assert SortByDay(s[1..]) == [Record(0, 1500), Record(1, 1500)];
    assert InsertByDay(Record(2, 1500), [Record(1, 1500)]) == [Record(1, 1500), Record(2, 1500)];
  }

  lemma ThreeDayStreaks()
    ensures Longest([0, 1, 2]) == 3 && Walk(SortDescending([0, 1, 2])) == 2
  {
    var ds := [0, 1, 2];
    assert ds[..1] == [0] && ds[..2] == [0, 1] && [0, 1][..1] == [0];
    assert RunEnd([0]) == 1 && RunEnd([0, 1]) == 2 && RunEnd(ds) == 3;
    assert Longest([0]) == 1 && Longest([0, 1]) == 2 && Longest(ds) == 3;
    assert SortDescending(ds[2..]) == [2];
    assert SortDescending(ds[1..]) == [2, 1];
    assert SortDescending(ds) == [2, 1, 0];
    assert Walk([0]) == 0 && Walk([1, 0]) == 1 && Walk([2, 1, 0]) == 2;
  }

  /**
   A repeated day stops the newest-first walk: days 4 and 5 both have
   sessions, yet with two records for day 5 the current streak is 1.
   */
  lemma RepeatedDayStopsWalk()
    ensures RunOfDays([Record(5, 1500), Record(4, 1500), Record(5, 300)], 4, 2)
    ensures MetricsOf([Record(5, 1500), Record(4, 1500), Record(5, 300)], 5).currentStreak == 1
  {
    RepeatedDayRun();
    RepeatedDayWalk();
  }

  lemma RepeatedDayRun()
    ensures RunOfDays([Record(5, 1500), Record(4, 1500), Record(5, 300)], 4, 2)
  {
    var s := [Record(5, 1500), Record(4, 1500), Record(5, 300)];
    forall d | 4 <= d < 4 + 2
      ensures d in Days(s)
    {
      if d == 4 {
        assert s[1] in s && s[1].day == d;
      } else {
        assert s[0] in s && s[0].day == d;
      }
    }
  }

  lemma RepeatedDayWalk()
    ensures MetricsOf([Record(5, 1500), Record(4, 1500), Record(5, 300)], 5).currentStreak == 1
  {
    var s := [Record(5, 1500), Record(4, 1500), Record(5, 300)];
    assert SortByDay(s[2..]) == [Record(5, 300)];
    assert SortByDay(s[1..]) == [Record(4, 1500), Record(5, 300)];
    assert InsertByDay(Record(5, 1500), [Record(5, 300)]) == [Record(5, 300), Record(5, 1500)];
    var sorted := [Record(4, 1500), Record(5, 300), Record(5, 1500)];
    assert SortByDay(s) == sorted;
    var ds := [4, 5, 5];
    assert DaysOf(sorted) == ds;
    assert SortDescending(ds[2..]) == [5];
    assert SortDescending(ds[1..]) == [5, 5];
    assert SortDescending(ds) == [5, 5, 4];
    assert Walk([5, 5, 4]) == 0;
  }

  /** A session dated after today starts the walk there: the current streak counts day 6 too. */
  lemma FutureDayExample()
    ensures MetricsOf([Record(5, 1500), Record(6, 1500)], 5).currentStreak == 2
  {
    var s := [Record(5, 1500), Record(6, 1500)];
    assert SortByDay(s[1..]) == [Record(6, 1500)];
    assert SortByDay(s) == s;
    assert DaysOf(s) == [5, 6];
    assert SortDescending([5, 6][1..]) == [6];
    assert SortDescending([5, 6]) == [6, 5];
    assert Walk([5]) == 0 && Walk([6, 5]) == 1;
  }

  /** Sessions on days 1 and 5 with today = 5: the gap breaks both streaks down to one day. */
  lemma GapExample()
    ensures MetricsOf([Record(1, 1500), Record(5, 1500)], 5) == Figures(1500, 1, 1, 1)
  {
    var s := [Record(1, 1500), Record(5, 1500)];
    assert SortByDay(s[1..]) == [Record(5, 1500)];
    assert SortByDay(s) == s;
    assert DaysOf(s) == [1, 5];
    assert SortDescending([1, 5][1..]) == [5];
    assert SortDescending([1, 5]) == [5, 1];
    assert Walk([5, 1]) == 0;
    assert RunEnd([1, 5]) == 1;
    assert Longest([1, 5]) == 1;
    assert DayTotal(s, 5) == 1500 && CountOn(s, 5) == 1;
  }

  /** An empty ledger shows zero everywhere. */
  lemma EmptyLedger(today: int)
    ensures MetricsOf([], today) == Figures(0, 0, 0, 0)
  {
  }

  /**
   A record of zero seconds counts like any other: nothing checks the
   duration, so day 4's empty record joins day 5 in both streaks.
   */
  lemma ZeroDurationCounts()
    ensures MetricsOf([Record(4, 0), Record(5, 1500)], 5) == Figures(1500, 1, 2, 2)
  {
    var s := [Record(4, 0), Record(5, 1500)];
    assert SortByDay(s[1..]) == [Record(5, 1500)];
    assert SortByDay(s) == s;
    assert DaysOf(s) == [4, 5];
    assert SortDescending([4, 5][1..]) == [5];
    assert SortDescending([4, 5]) == [5, 4];
    assert Walk([4]) == 0 && Walk([5, 4]) == 1;
    assert RunEnd([4]) == 1 && RunEnd([4, 5]) == 2;
    assert Longest([4, 5]) == 2;
    assert DayTotal(s, 5) == 1500 && CountOn(s, 5) == 1;
  }
}

=== FILE: pomodoro.dfy ===
/**
 The timer logic of the home screen: four periods (work, short break, work,
 long break) in a fixed cycle, a once-a-second countdown clamped at zero, the
 start/pause and reset buttons, and the end of a period, which records a work
 period in the session store and moves on to the next period. React state and
 effects become one state value and a step function over the events that
 change it; the chime, the ambient sound and the interval timer are left out.
 */
module Pomodoro {
  import opened Dates
  import opened Ledger
  import M = Metrics

  /** Seconds in each period of the cycle: work, short break, work, long break. */
  const SessionDurations: seq<nat> := [25 * 60, 5 * 60, 25 * 60, 15 * 60]

  /** A position in the cycle. */
  type Period = i: int | 0 <= i < 4

  /** Work periods are the even positions; they are the ones recorded. */
  predicate IsWork(i: Period) {
    i % 2 == 0
  }

  /** `(periodIndex + 1) % sessionDurations.length`. */
  function Next(i: Period): (j: Period)
    ensures j != i
    ensures j == 0 <==> i == 3
    ensures IsWork(j) <==> !IsWork(i)
  {
    (i + 1) % |SessionDurations|
  }

  datatype Timer = Timer(periodIndex: Period, remaining: int, isRunning: bool)

  /** A countdown that has not yet run out and never exceeds its period's length. */
  predicate Valid(t: Timer) {
    0 < t.remaining <= SessionDurations[t.periodIndex]
  }

  /** The state on mount and after a reset: the first work period, full, paused. */
  const Initial: Timer := Timer(0, SessionDurations[0], false)

  /** One interval callback: the count goes down by one second and stops at zero. */
  function TickRemaining(prev: int): (r: int)
    ensures r >= 0
    ensures prev <= 0 ==> r == 0
    ensures prev > 0 ==> r < prev
    ensures prev > 0 ==> r + 1 >= prev
  {
    if prev <= 0 then 0 else prev - 1
  }

  /** The count after `n` callbacks. */
  function Countdown(prev: int, n: nat): (r: int)
    ensures n > 0 ==> r >= 0
    ensures prev >= 0 ==> r <= prev
  {
    if n == 0 then prev else TickRemaining(Countdown(prev, n - 1))
  }

  function HandleStartPause(t: Timer): (t': Timer)
    ensures t'.isRunning != t.isRunning
    ensures t'.periodIndex == t.periodIndex && t'.remaining == t.remaining
  {
    t.(isRunning := !t.isRunning)
  }

  /** Reset stops the timer and returns to the full first work period, whatever the state was. */
  function HandleReset(t: Timer): (t': Timer)
    ensures Valid(t') && !t'.isRunning && t'.periodIndex == 0
    ensures t'.remaining == 25 * 60
  {
    Initial
  }

  /**
   The figures on show, kept as the session list and the day they were
   computed from: the `metrics` state is `computeMetrics` of that list.
   */
  datatype Shown = Shown(sessions: seq<Record>, today: int)

  function FiguresOf(sh: Shown): M.Figures {
    M.MetricsOf(sh.sessions, sh.today)
  }

  /** What the home screen holds: the timer, the session store and the metrics on show. */
  datatype Screen = Screen(timer: Timer, store: Store, shown: Shown)

  /**
   `handlePeriodEnd` for the period that just ran out at `now`. A work period is
   appended to the store (`writeOk` says whether the write succeeds) and the
   metrics are recomputed from what the store then holds; a break records
   nothing. Either way the next period starts, full and running. This is the
   path on which the awaited `appendSession` and `stop()` resolve; a rejection
   of either ends the handler before the advance, which is not modelled.
   */
  function HandlePeriodEnd(sc: Screen, now: Instant, writeOk: bool): (sc': Screen)
    ensures Valid(sc'.timer) && sc'.timer.isRunning
    ensures sc'.timer.periodIndex == Next(sc.timer.periodIndex)
    ensures sc'.timer.remaining == SessionDurations[sc'.timer.periodIndex]
    ensures !IsWork(sc.timer.periodIndex) ==> sc'.store == sc.store && sc'.shown == sc.shown
    ensures IsWork(sc.timer.periodIndex) && writeOk ==>
      sc'.store == Holding(Merge(LoadSessions(sc.store), UtcDay(now), SessionDurations[sc.timer.periodIndex]))
    ensures !writeOk ==> sc'.store == sc.store
    ensures IsWork(sc.timer.periodIndex) ==>
      sc'.shown == Shown(LoadSessions(sc'.store), UtcDay(now))
  {
    var i := sc.timer.periodIndex;
    var next := Next(i);
    var timer := Timer(next, SessionDurations[next], true);
    if IsWork(i) then
      var store := AppendSession(sc.store, now, SessionDurations[i], writeOk).0;
      Screen(timer, store, Shown(LoadSessions(store), UtcDay(now)))
    else
      sc.(timer := timer)
  }

  /** The events that change the timer: one second passing, and the two buttons. */
  datatype Event = Second | StartPausePressed | ResetPressed

  /**
   One event and the effects it sets off. A second only counts while running;
   when it brings the count from one to zero the period ends at once.
   */
  function Step(sc: Screen, ev: Event, now: Instant, writeOk: bool): (sc': Screen)
    ensures Valid(sc.timer) ==> Valid(sc'.timer)
  {
    match ev
    case ResetPressed => sc.(timer := HandleReset(sc.timer))
    case StartPausePressed => sc.(timer := HandleStartPause(sc.timer))
    case Second =>
      if !sc.timer.isRunning then sc
      else
        var r := TickRemaining(sc.timer.remaining);
        if r == 0 && sc.timer.remaining != 0 then HandlePeriodEnd(sc, now, writeOk)
        else sc.(timer := sc.timer.(remaining := r))
  }

  /** `n` seconds passing with no button pressed, all within the day of `now`. */
  /** The screen after `n` seconds' callbacks, all at the instant `now`. */
  function Seconds(sc: Screen, n: nat, now: Instant, writeOk: bool): (sc': Screen)
    ensures Valid(sc.timer) ==> Valid(sc'.timer)
  {
    if n == 0 then sc else Step(Seconds(sc, n - 1, now, writeOk), Second, now, writeOk)
  }

  lemma {:induction false} CountdownClosedForm(prev: int, n: nat)
    requires prev >= 0
    ensures Countdown(prev, n) == if n <= prev then prev - n else 0
  {
    if n > 0 {
      CountdownClosedForm(prev, n - 1);
    }
  }

  /** Four advances return to the same period, passing through all four. */
  lemma FourAdvances(i: Period)
    ensures Next(Next(Next(Next(i)))) == i
    ensures {i, Next(i), Next(Next(i)), Next(Next(Next(i)))} == {0, 1, 2, 3}
  {
  }

  /** Reset gives the same timer from any state and leaves the store and the metrics alone. */
  lemma ResetFromAnywhere(a: Screen, b: Screen, now: Instant, writeOk: bool)
    ensures Step(a, ResetPressed, now, writeOk).timer == Step(b, ResetPressed, now, writeOk).timer
    ensures Step(a, ResetPressed, now, writeOk).timer == Timer(0, 1500, false)
    ensures Step(a, ResetPressed, now, writeOk).store == a.store
    ensures Step(a, ResetPressed, now, writeOk).shown == a.shown
  {
  }

  /**
   The period only moves on, and the store only changes, when reset is pressed
   or a running countdown reaches zero; the store only changes at the end of a
   work period.
   */
  lemma PeriodEndsOnlyAtZero(sc: Screen, ev: Event, now: Instant, writeOk: bool)
    requires Valid(sc.timer)
    ensures var sc' := Step(sc, ev, now, writeOk);
      sc'.timer.periodIndex != sc.timer.periodIndex ==>
        ev == ResetPressed || (ev == Second && sc.timer.isRunning && sc.timer.remaining == 1)
    ensures var sc' := Step(sc, ev, now, writeOk);
      sc'.store != sc.store || sc'.shown != sc.shown ==>
        ev == Second && sc.timer.isRunning && sc.timer.remaining == 1 && IsWork(sc.timer.periodIndex)
  {
  }

  /**
   The end of a work period appends the period's length to the session list
   under the day of `now`, and the metrics on show then count at least one
   session today and a streak of at least one day.
   */
  lemma WorkPeriodRecorded(sc: Screen, now: Instant)
    requires Valid(sc.timer) && sc.timer.isRunning && sc.timer.remaining == 1
    requires IsWork(sc.timer.periodIndex)
    requires UniqueDays(LoadSessions(sc.store))
    ensures var sc' := Step(sc, Second, now, true);
      LoadSessions(sc'.store) == Merge(LoadSessions(sc.store), UtcDay(now), 1500)
      && FiguresOf(sc'.shown).sessionsToday == 1 && FiguresOf(sc'.shown).currentStreak >= 1
      && FiguresOf(sc'.shown).totalToday == DayTotal(LoadSessions(sc.store), UtcDay(now)) + 1500
  {
    assert Step(sc, Second, now, true) == HandlePeriodEnd(sc, now, true);
    WorkPeriodEnd(sc, now);
  }

  lemma WorkPeriodEnd(sc: Screen, now: Instant)
    requires IsWork(sc.timer.periodIndex)
    requires UniqueDays(LoadSessions(sc.store))
    ensures var sc' := HandlePeriodEnd(sc, now, true);
      LoadSessions(sc'.store) == Merge(LoadSessions(sc.store), UtcDay(now), 1500)
      && FiguresOf(sc'.shown).sessionsToday == 1 && FiguresOf(sc'.shown).currentStreak >= 1
      && FiguresOf(sc'.shown).totalToday == DayTotal(LoadSessions(sc.store), UtcDay(now)) + 1500
  {
    var sc' := HandlePeriodEnd(sc, now, true);
    var today := UtcDay(now);
    var s2 := Merge(LoadSessions(sc.store), today, 1500);
    assert LoadSessions(sc'.store) == s2 by {
      PeriodEndStore(sc, now, true);
    }
    assert sc'.shown == Shown(s2, today);
    RecordedMetrics(LoadSessions(sc.store), today, 1500);
  }

  lemma RecordedMetrics(s: seq<Record>, today: int, duration: int)
    requires UniqueDays(s)
    ensures var m := M.MetricsOf(Merge(s, today, duration), today);
      m.sessionsToday == 1 && m.currentStreak >= 1 && m.totalToday == DayTotal(s, today) + duration
  {
    var s' := Merge(s, today, duration);
    M.AfterRecordingToday(s, today, duration);
    MergeAny(s, today, duration, today);
    M.TodayFigures(s', today);
  }

  /** Every step keeps the stored list at one record per day. */
  lemma StepKeepsUniqueDays(sc: Screen, ev: Event, now: Instant, writeOk: bool)
    requires UniqueDays(LoadSessions(sc.store))
    ensures UniqueDays(LoadSessions(Step(sc, ev, now, writeOk).store))
  {
    var s := LoadSessions(sc.store);
    MergeKeepsUniqueDays(s, UtcDay(now), SessionDurations[sc.timer.periodIndex]);
  }

  lemma {:induction false} SecondsSplit(sc: Screen, a: nat, b: nat, now: Instant, writeOk: bool)
    ensures Seconds(sc, a + b, now, writeOk) == Seconds(Seconds(sc, a, now, writeOk), b, now, writeOk)
  {
    if b > 0 {
      SecondsSplit(sc, a, b - 1, now, writeOk);
    }
  }

  /** Before the count runs out, each second takes one off it and nothing else changes. */
  lemma {:induction false} SecondsWithinPeriod(sc: Screen, n: nat, now: Instant, writeOk: bool)
    requires Valid(sc.timer) && sc.timer.isRunning && n < sc.timer.remaining
    ensures Seconds(sc, n, now, writeOk) == sc.(timer := sc.timer.(remaining := sc.timer.remaining - n))
  {
    if n > 0 {
      SecondsWithinPeriod(sc, n - 1, now, writeOk);
    }
  }

  /** A running period ends exactly when its remaining seconds have passed. */
  lemma PeriodEndsOnTime(sc: Screen, now: Instant, writeOk: bool)
    requires Valid(sc.timer) && sc.timer.isRunning
    ensures Seconds(sc, sc.timer.remaining, now, writeOk) == HandlePeriodEnd(sc, now, writeOk)
  {
    var n := sc.timer.remaining;
    SecondsWithinPeriod(sc, n - 1, now, writeOk);
  }

  /**
   What the end of a period does to the stored list: only a work period whose
   write succeeds changes it.
   */
  lemma PeriodEndStore(sc: Screen, now: Instant, writeOk: bool)
    ensures LoadSessions(HandlePeriodEnd(sc, now, writeOk).store)
         == if IsWork(sc.timer.periodIndex) && writeOk
            then Merge(LoadSessions(sc.store), UtcDay(now), SessionDurations[sc.timer.periodIndex])
            else LoadSessions(sc.store)
  {
  }

  /**
   A failed write loses the session: the store keeps what it held, and after a
   work period the figures are recomputed from that old list.
   */
  lemma PeriodEndWriteFails(sc: Screen, now: Instant)
    ensures var sc' := HandlePeriodEnd(sc, now, false);
      sc'.store == sc.store
      && (IsWork(sc.timer.periodIndex) ==> sc'.shown == Shown(LoadSessions(sc.store), UtcDay(now)))
  {
  }

  /** A full period from its start: its length in seconds brings the next period, full and running. */
  lemma WholePeriod(sc: Screen, now: Instant)
    requires sc.timer.isRunning && sc.timer.remaining == SessionDurations[sc.timer.periodIndex]
    ensures var sc' := Seconds(sc, SessionDurations[sc.timer.periodIndex], now, true);
      sc'.timer == Timer(Next(sc.timer.periodIndex), SessionDurations[Next(sc.timer.periodIndex)], true)
      && LoadSessions(sc'.store)
         == if IsWork(sc.timer.periodIndex)
            then Merge(LoadSessions(sc.store), UtcDay(now), SessionDurations[sc.timer.periodIndex])
            else LoadSessions(sc.store)
  {
    PeriodEndsOnTime(sc, now, true);
    PeriodEndStore(sc, now, true);
  }

  /** A work period and the break after it: one 25-minute session recorded, two periods on. */
  lemma WorkAndBreak(sc: Screen, now: Instant)
    requires sc.timer.isRunning && IsWork(sc.timer.periodIndex) && sc.timer.remaining == 1500
    ensures var sc' := Seconds(sc, 1500 + SessionDurations[sc.timer.periodIndex + 1], now, true);
      sc'.timer == Timer(Next(Next(sc.timer.periodIndex)), 1500, true)
      && LoadSessions(sc'.store) == Merge(LoadSessions(sc.store), UtcDay(now), 1500)
  {
    var i := sc.timer.periodIndex;
    var a, b := SessionDurations[i], SessionDurations[i + 1];
    assert a == 1500;
    WholePeriod(sc, now);
    var sc1 := Seconds(sc, a, now, true);
    assert sc1.timer == Timer(i + 1, b, true);
    assert LoadSessions(sc1.store) == Merge(LoadSessions(sc.store), UtcDay(now), 1500);
    WholePeriod(sc1, now);
    var sc2 := Seconds(sc1, b, now, true);
    assert LoadSessions(sc2.store) == LoadSessions(sc1.store);
    SecondsSplit(sc, a, b, now, true);
  }

  /**
   A full running cycle, 70 minutes within one day with every write
   succeeding, comes back to the start of the first work period and has
   recorded two 25-minute sessions: 3000 more seconds on that day and no other.
   */
  lemma FullCycle(sc: Screen, now: Instant, day: int)
    requires sc.timer == Timer(0, 1500, true)
    ensures var sc' := Seconds(sc, 1500 + 300 + 1500 + 900, now, true);
      sc'.timer == Timer(0, 1500, true)
      && LoadSessions(sc'.store) == Merge(Merge(LoadSessions(sc.store), UtcDay(now), 1500), UtcDay(now), 1500)
      && DayTotal(LoadSessions(sc'.store), day)
         == DayTotal(LoadSessions(sc.store), day) + (if day == UtcDay(now) then 3000 else 0)
  {
    var today := UtcDay(now);
    var s := LoadSessions(sc.store);
    var s2 := Merge(s, today, 1500);
    var sc2 := Seconds(sc, 1500 + 300, now, true);
    assert sc2.timer == Timer(2, 1500, true) && LoadSessions(sc2.store) == s2 by {
      WorkAndBreak(sc, now);
    }
    var sc4 := Seconds(sc2, 1500 + 900, now, true);
    assert sc4.timer == Timer(0, 1500, true) && LoadSessions(sc4.store) == Merge(s2, today, 1500) by {
      WorkAndBreak(sc2, now);
    }
    assert Seconds(sc, 1500 + 300 + 1500 + 900, now, true) == sc4 by {
      SecondsSplit(sc, 1500 + 300, 1500 + 900, now, true);
    }
    assert DayTotal(Merge(s2, today, 1500), day) == DayTotal(s, day) + (if day == today then 3000 else 0) by {
      MergeAny(s, today, 1500, day);
      MergeAny(s2, today, 1500, day);
    }
  }
}

=== FILE: sorting.dfy ===
/**
 The two sorts `computeMetrics` performs: the session list by date, oldest
 first, and (`getReverseSortedDates`) the session days, newest first. Both are
 insertion sorts here; any correct sort gives the same day sequence, since a
 sorted arrangement of a multiset of days is unique (`SortedDaysUnique`).
 */
module Sorting {
  import opened Ledger

  predicate SortedByDay(s: seq<Record>) {
    forall i, j :: 0 <= i < j < |s| ==> s[i].day <= s[j].day
  }

  predicate Ascending(ds: seq<int>) {
    forall i, j :: 0 <= i < j < |ds| ==> ds[i] <= ds[j]
  }

  predicate Descending(ds: seq<int>) {
    forall i, j :: 0 <= i < j < |ds| ==> ds[i] >= ds[j]
  }

  /** The days of the records, in list order. */
  function DaysOf(s: seq<Record>): (ds: seq<int>)
    ensures |ds| == |s|
    ensures forall i :: 0 <= i < |s| ==> ds[i] == s[i].day
  {
    seq(|s|, i requires 0 <= i < |s| => s[i].day)
  }

  /** Inserts `r` after every record of an earlier or equal day. */
  function InsertByDay(r: Record, s: seq<Record>): (t: seq<Record>)
    requires SortedByDay(s)
    ensures SortedByDay(t) && |t| == |s| + 1
    ensures t[0] == r || (|s| > 0 && t[0] == s[0])
  {
    if |s| == 0 || r.day < s[0].day then [r] + s
    else [s[0]] + InsertByDay(r, s[1..])
  }

  /** `[...sessions].sort((a, b) => (a.date < b.date ? -1 : 1))`, on day numbers. */
  function SortByDay(s: seq<Record>): (t: seq<Record>)
    ensures SortedByDay(t) && |t| == |s|
  {
    if |s| == 0 then [] else InsertByDay(s[0], SortByDay(s[1..]))
  }

  /** The sort is not stable: two records of one day come out in reverse input order. */
  lemma EqualDaysReversed()
    ensures SortByDay([Record(5, 1500), Record(5, 300)]) == [Record(5, 300), Record(5, 1500)]
  {
    assert SortByDay([Record(5, 300)]) == [Record(5, 300)];
  }

  /** Inserts `d` before every day that is earlier or equal. */
  function InsertDescending(d: int, ds: seq<int>): (t: seq<int>)
    requires Descending(ds)
    ensures Descending(t) && |t| == |ds| + 1
    ensures t[0] == d || (|ds| > 0 && t[0] == ds[0])
  {
    if |ds| == 0 || d >= ds[0] then [d] + ds
    else [ds[0]] + InsertDescending(d, ds[1..])
  }

  /** `getReverseSortedDates(dates)`: `dates.sort((a, b) => b - a)`, newest first. */
  function SortDescending(ds: seq<int>): (t: seq<int>)
    ensures Descending(t) && |t| == |ds|
  {
    if |ds| == 0 then [] else InsertDescending(ds[0], SortDescending(ds[1..]))
  }

  lemma {:induction false} InsertByDayPermutes(r: Record, s: seq<Record>)
    requires SortedByDay(s)
    ensures multiset(InsertByDay(r, s)) == multiset(s) + multiset{r}
  {
    if !(|s| == 0 || r.day < s[0].day) {
      InsertByDayPermutes(r, s[1..]);
      assert s == [s[0]] + s[1..];
    }
  }

  /** Sorting by date is a rearrangement of the records. */
  lemma {:induction false} SortByDayPermutes(s: seq<Record>)
    ensures multiset(SortByDay(s)) == multiset(s)
  {
    if |s| > 0 {
      SortByDayPermutes(s[1..]);
      InsertByDayPermutes(s[0], SortByDay(s[1..]));
      assert s == [s[0]] + s[1..];
    }
  }

  lemma {:induction false} InsertDescendingPermutes(d: int, ds: seq<int>)
    requires Descending(ds)
    ensures multiset(InsertDescending(d, ds)) == multiset(ds) + multiset{d}
  {
    if !(|ds| == 0 || d >= ds[0]) {
      InsertDescendingPermutes(d, ds[1..]);
      assert ds == [ds[0]] + ds[1..];
    }
  }

  /** Sorting newest first is a rearrangement of the days. */
  lemma {:induction false} SortDescendingPermutes(ds: seq<int>)
    ensures multiset(SortDescending(ds)) == multiset(ds)
  {
    if |ds| > 0 {
      var rest := SortDescending(ds[1..]);
      SortDescendingPermutes(ds[1..]);
      InsertDescendingPermutes(ds[0], rest);
      BagStep(SortDescending(ds), rest, ds[1..], ds[0]);
      assert ds == [ds[0]] + ds[1..];
    }
  }

  /** Sorting by date keeps the days present. */
  lemma SortKeepsDays(s: seq<Record>, d: int)
    ensures d in Days(SortByDay(s)) <==> d in Days(s)
  {
    var t := SortByDay(s);
    SortByDayPermutes(s);
    if d in Days(t) {
      var r :| r in t && r.day == d;
      assert r in multiset(t);
    }
    if d in Days(s) {
      var r :| r in s && r.day == d;
      assert r in multiset(s);
    }
  }

  lemma SortedDays(s: seq<Record>)
    requires SortedByDay(s)
    ensures Ascending(DaysOf(s))
  {
  }

  /** A day occurs among a list's days exactly when some record of the list has it. */
  lemma DaysOfMembers(s: seq<Record>, d: int)
    ensures d in DaysOf(s) <==> d in Days(s)
  {
    if d in DaysOf(s) {
      var i :| 0 <= i < |s| && DaysOf(s)[i] == d;
      assert s[i] in s;
    }
    if d in Days(s) {
      var r :| r in s && r.day == d;
      var i :| 0 <= i < |s| && s[i] == r;
      assert DaysOf(s)[i] == d;
    }
  }

  /** Sorting changes neither any day's total nor its record count. */
  lemma {:induction false} SortKeepsTotals(s: seq<Record>, day: int)
    ensures DayTotal(SortByDay(s), day) == DayTotal(s, day)
    ensures CountOn(SortByDay(s), day) == CountOn(s, day)
  {
    if |s| > 0 {
      SortKeepsTotals(s[1..], day);
      InsertKeepsTotals(s[0], SortByDay(s[1..]), day);
    }
  }

  lemma {:induction false} InsertKeepsTotals(r: Record, s: seq<Record>, day: int)
    requires SortedByDay(s)
    ensures DayTotal(InsertByDay(r, s), day) == DayTotal(s, day) + (if r.day == day then r.duration else 0)
    ensures CountOn(InsertByDay(r, s), day) == CountOn(s, day) + (if r.day == day then 1 else 0)
  {
    if |s| == 0 || r.day < s[0].day {
      assert ([r] + s)[1..] == s;
    } else {
      var tail := InsertByDay(r, s[1..]);
      InsertKeepsTotals(r, s[1..], day);
      assert ([s[0]] + tail)[1..] == tail;
    }
  }

  /** No element repeats in the sequence. */
  predicate Distinct<T(==)>(xs: seq<T>) {
    forall i, j :: 0 <= i < j < |xs| ==> xs[i] != xs[j]
  }

  lemma {:induction false} DistinctCounts<T>(xs: seq<T>, x: T)
    requires Distinct(xs)
    ensures multiset(xs)[x] <= 1
  {
    if |xs| > 0 {
      assert xs == [xs[0]] + xs[1..];
      DistinctCounts(xs[1..], x);
      if xs[0] == x {
        assert x !in xs[1..];
      }
    }
  }

  lemma RepeatCounts<T>(xs: seq<T>, i: int, j: int)
    requires 0 <= i < j < |xs| && xs[i] == xs[j]
    ensures multiset(xs)[xs[i]] >= 2
  {
    assert xs == xs[..j] + [xs[j]] + xs[j + 1..];
    assert xs[i] in xs[..j];
  }

  /** Rearranging a repeat-free sequence keeps it repeat-free. */
  lemma DistinctPermutation<T>(a: seq<T>, b: seq<T>)
    requires Distinct(a) && multiset(a) == multiset(b)
    ensures Distinct(b)
  {
    forall i, j | 0 <= i < j < |b|
      ensures b[i] != b[j]
    {
      DistinctCounts(a, b[i]);
      if b[i] == b[j] {
        RepeatCounts(b, i, j);
      }
    }
  }

  /** One record per day is the same as the day list having no repeats. */
  lemma UniqueDaysDistinct(s: seq<Record>)
    ensures UniqueDays(s) <==> Distinct(DaysOf(s))
  {
  }

  /** Sorting by date keeps a one-record-per-day ledger so. */
  lemma SortKeepsUniqueDays(s: seq<Record>)
    requires UniqueDays(s)
    ensures UniqueDays(SortByDay(s))
  {
    var t := SortByDay(s);
    SortByDayPermutes(s);
    assert Distinct(s);
    DistinctPermutation(s, t);
    forall i, j | 0 <= i < j < |t|
      ensures t[i].day != t[j].day
    {
      assert t[i] in multiset(s) && t[j] in multiset(s);
      var a :| 0 <= a < |s| && s[a] == t[i];
      var b :| 0 <= b < |s| && s[b] == t[j];
      assert t[i] != t[j];
      assert a != b;
    }
  }

  /** Two ascending arrangements of one multiset of days are the same sequence. */
  lemma {:induction false} SortedDaysUnique(a: seq<int>, b: seq<int>)
    requires Ascending(a) && Ascending(b) && multiset(a) == multiset(b)
    ensures a == b
    decreases |a|
  {
    assert |a| == |multiset(a)| == |multiset(b)| == |b|;
    if |a| > 0 {
      var n := |a| - 1;
      assert a[n] == b[n] by {
        assert a[n] in multiset(b) && b[n] in multiset(a);
        AscendingLastIsMax(b, a[n]);
        AscendingLastIsMax(a, b[n]);
      }
      assert multiset(a[..n]) == multiset(b[..n]) by {
        DropLast(a);
        DropLast(b);
      }
      assert a[..n] == b[..n] by {
        AscendingPrefix(a, n);
        AscendingPrefix(b, n);
        SortedDaysUnique(a[..n], b[..n]);
      }
      SameInitAndLast(a, b);
    }
  }

  /**
   Whatever order a sort leaves records of one day in, the days come out the
   same: every date-sorted list holding the same days, as many times each,
   has the day sequence `SortByDay` gives.
   */
  lemma SortDaysDetermined(s: seq<Record>, t: seq<Record>)
    requires SortedByDay(t) && multiset(DaysOf(t)) == multiset(DaysOf(s))
    ensures DaysOf(t) == DaysOf(SortByDay(s))
  {
    var u := SortByDay(s);
    SortDaysPermute(s);
    SortedDays(t);
    SortedDays(u);
    SortedDaysUnique(DaysOf(t), DaysOf(u));
  }

  lemma DaysOfConcat(p: seq<Record>, q: seq<Record>)
    ensures DaysOf(p + q) == DaysOf(p) + DaysOf(q)
  {
  }

  lemma {:induction false} InsertDaysPermute(r: Record, s: seq<Record>)
    requires SortedByDay(s)
    ensures multiset(DaysOf(InsertByDay(r, s))) == multiset(DaysOf(s)) + multiset{r.day}
  {
    if |s| == 0 || r.day < s[0].day {
      DaysOfConcat([r], s);
    } else {
      var t := InsertByDay(r, s[1..]);
      InsertDaysPermute(r, s[1..]);
      assert InsertByDay(r, s)[1..] == t;
      DaysOfCons(InsertByDay(r, s));
      DaysOfCons(s);
      BagCons(DaysOf(t), DaysOf(s[1..]), r.day, s[0].day);
    }
  }

  /** Sorting by date rearranges the days of the records. */
  lemma {:induction false} SortDaysPermute(s: seq<Record>)
    ensures multiset(DaysOf(SortByDay(s))) == multiset(DaysOf(s))
  {
    if |s| > 0 {
      var rest := SortByDay(s[1..]);
      SortDaysPermute(s[1..]);
      InsertDaysPermute(s[0], rest);
      DaysOfCons(s);
      BagStep(DaysOf(SortByDay(s)), DaysOf(rest), DaysOf(s[1..]), s[0].day);
    }
  }

  lemma DaysOfCons(s: seq<Record>)
    requires |s| > 0
    ensures DaysOf(s) == [s[0].day] + DaysOf(s[1..])
  {
    assert s == [s[0]] + s[1..];
    DaysOfConcat([s[0]], s[1..]);
  }

  lemma BagStep(a: seq<int>, b: seq<int>, c: seq<int>, x: int)
    requires multiset(a) == multiset(b) + multiset{x} && multiset(b) == multiset(c)
    ensures multiset(a) == multiset([x] + c)
  {
  }

  lemma BagCons(a: seq<int>, b: seq<int>, x: int, y: int)
    requires multiset(a) == multiset(b) + multiset{x}
    ensures multiset([y] + a) == multiset([y] + b) + multiset{x}
  {
  }

  lemma AscendingPrefix(a: seq<int>, n: int)
    requires Ascending(a) && 0 <= n <= |a|
    ensures Ascending(a[..n])
  {
  }

  lemma SameInitAndLast(a: seq<int>, b: seq<int>)
    requires |a| == |b| > 0
    requires a[..|a| - 1] == b[..|b| - 1] && a[|a| - 1] == b[|b| - 1]
    ensures a == b
  {
    assert a == a[..|a| - 1] + [a[|a| - 1]];
    assert b == b[..|b| - 1] + [b[|b| - 1]];
  }

  lemma AscendingLastIsMax(a: seq<int>, x: int)
    requires Ascending(a) && x in a
    ensures x <= a[|a| - 1]
  {
  }

  lemma DropLast(a: seq<int>)
    requires |a| > 0
    ensures multiset(a[..|a| - 1]) == multiset(a) - multiset{a[|a| - 1]}
  {
    assert a == a[..|a| - 1] + [a[|a| - 1]];
  }
}

=== FILE: streaks.dfy ===
/**
 The two streak scans of `computeMetrics`, on day numbers, and what they
 compute. The longest-streak scan walks the days oldest first keeping a run
 counter; the current-streak walk starts at the newest day and counts back
 while each next day is exactly one earlier. Both are characterised by runs
 of consecutive calendar days present in the list.
 */
module Streaks {
  import opened Sorting

  /** Every day of `[start, start + len)` occurs in `ds`. */
  predicate RunIn(ds: seq<int>, start: int, len: int) {
    forall d :: start <= d < start + len ==> d in ds
  }

  /**
   The counter `current` once the oldest-first scan has seen all of `ds`:
   the first day sets it to 1, a gap of one day adds one, a longer gap
   restarts at 1, and a repeated (or earlier) day leaves it as it was.
   */
  function RunEnd(ds: seq<int>): (c: nat)
    ensures |ds| == 0 ==> c == 0
    ensures |ds| > 0 ==> 1 <= c <= |ds|
  {
    if |ds| <= 1 then |ds|
    else
      var n := |ds|;
      var p := RunEnd(ds[..n - 1]);
      var gap := ds[n - 1] - ds[n - 2];
      if gap == 1 then p + 1 else if gap > 1 then 1 else p
  }

  /** `longest` after the scan: the largest value the counter took. */
  function Longest(ds: seq<int>): (l: nat)
    ensures l == 0 <==> |ds| == 0
    ensures l <= |ds|
  {
    if |ds| == 0 then 0
    else
      var p := Longest(ds[..|ds| - 1]);
      var c := RunEnd(ds);
      if c > p then c else p
  }

  /**
   The number of steps the newest-first walk takes: it continues while the
   next day is exactly one before the current one and stops at anything
   else, a repeated day included.
   */
  function Walk(ds: seq<int>): (w: nat)
    ensures |ds| > 0 ==> w < |ds|
    ensures |ds| == 0 ==> w == 0
  {
    if |ds| < 2 || ds[1] - ds[0] != -1 then 0 else 1 + Walk(ds[1..])
  }

  lemma PrefixMembers(ds: seq<int>, n: int, d: int)
    requires 0 <= n <= |ds| && d in ds[..n]
    ensures d in ds
  {
    var i :| 0 <= i < n && ds[..n][i] == d;
    assert ds[i] == d;
  }

  /** The run the counter reports really is there: it ends at the last day scanned. */
  lemma {:induction false} RunEndCovers(ds: seq<int>)
    requires Ascending(ds) && |ds| > 0
    ensures RunIn(ds, ds[|ds| - 1] - RunEnd(ds) + 1, RunEnd(ds))
  {
    var n := |ds|;
    if n > 1 {
      var p := ds[..n - 1];
      AscendingPrefix(ds, n - 1);
      RunEndCovers(p);
      var start := ds[n - 1] - RunEnd(ds) + 1;
      forall d | start <= d < start + RunEnd(ds)
        ensures d in ds
      {
        if d != ds[n - 1] {
          PrefixMembers(ds, n - 1, d);
        }
      }
    }
  }

  /** A run ending at the last day scanned is never longer than the counter. */
  lemma {:induction false} RunEndReaches(ds: seq<int>, k: int)
    requires Ascending(ds) && |ds| > 0 && 1 <= k
    requires RunIn(ds, ds[|ds| - 1] - k + 1, k)
    ensures RunEnd(ds) >= k
  {
    var n := |ds|;
    var last := ds[n - 1];
    if k > 1 {
      assert last - 1 in ds;
      var i :| 0 <= i < n && ds[i] == last - 1;
      assert n > 1 && ds[n - 2] >= last - 1;
      var p := ds[..n - 1];
      AscendingPrefix(ds, n - 1);
      if ds[n - 2] == last - 1 {
        forall d | last - 1 - (k - 1) + 1 <= d < last - 1 - (k - 1) + 1 + (k - 1)
          ensures d in p
        {
          assert d in ds;
          var j :| 0 <= j < n && ds[j] == d;
          assert j != n - 1;
          assert p[j] == d;
        }
        RunEndReaches(p, k - 1);
      } else {
        assert ds[n - 2] == last;
        forall d | last - k + 1 <= d < last + 1
          ensures d in p
        {
          assert d in ds;
          var j :| 0 <= j < n && ds[j] == d;
          if j == n - 1 {
            assert p[n - 2] == d;
          } else {
            assert p[j] == d;
          }
        }
        RunEndReaches(p, k);
      }
    }
  }

  /** Scanning more days never lowers `longest`. */
  lemma {:induction false} LongestPrefix(ds: seq<int>, m: int)
    requires 0 <= m <= |ds|
    ensures Longest(ds[..m]) <= Longest(ds)
    decreases |ds|
  {
    if m < |ds| {
      var p := ds[..|ds| - 1];
      LongestPrefix(p, m);
      assert p[..m] == ds[..m];
    } else {
      assert ds[..m] == ds;
    }
  }

  /** Any run of consecutive days in the list is at most `longest` long. */
  lemma LongestAtLeast(ds: seq<int>, start: int, k: int)
    requires Ascending(ds) && 1 <= k && RunIn(ds, start, k)
    ensures Longest(ds) >= k
  {
    var e := start + k - 1;
    assert e in ds;
    var j :| 0 <= j < |ds| && ds[j] == e;
    var q := ds[..j + 1];
    assert RunEnd(q) >= k by {
      RunInPrefix(ds, j, start, k);
      AscendingPrefix(ds, j + 1);
      RunEndReaches(q, k);
    }
    assert Longest(q) >= RunEnd(q);
    LongestPrefix(ds, j + 1);
  }

  /** On ascending days, a run ending at `ds[j]` lies within the days up to `j`. */
  lemma RunInPrefix(ds: seq<int>, j: int, start: int, k: int)
    requires Ascending(ds) && 0 <= j < |ds| && ds[j] == start + k - 1
    requires RunIn(ds, start, k)
    ensures RunIn(ds[..j + 1], start, k)
  {
    var q := ds[..j + 1];
    forall d | start <= d < start + k
      ensures d in q
    {
      assert d in ds;
      var i :| 0 <= i < |ds| && ds[i] == d;
      if d == ds[j] {
        assert q[j] == d;
      } else {
        assert i < j;
        assert q[i] == d;
      }
    }
  }

  /** `longest` is the length of some run of consecutive days in the list. */
  lemma {:induction false} LongestAchieved(ds: seq<int>)
    requires Ascending(ds) && |ds| > 0
    ensures exists start :: RunIn(ds, start, Longest(ds))
  {
    var n := |ds|;
    var p := ds[..n - 1];
    if Longest(ds) == RunEnd(ds) {
      RunEndCovers(ds);
    } else {
      assert n > 1;
      AscendingPrefix(ds, n - 1);
      LongestAchieved(p);
      var start :| RunIn(p, start, Longest(p));
      forall d | start <= d < start + Longest(ds)
        ensures d in ds
      {
        PrefixMembers(ds, n - 1, d);
      }
      assert RunIn(ds, start, Longest(ds));
    }
  }

  /** `longest` is the length of the longest run of consecutive days in the list. */
  lemma LongestIsLongestRun(ds: seq<int>)
    requires Ascending(ds)
    ensures |ds| > 0 ==> exists start :: RunIn(ds, start, Longest(ds))
    ensures forall start, k :: k > Longest(ds) ==> !RunIn(ds, start, k)
  {
    if |ds| > 0 {
      LongestAchieved(ds);
    }
    forall start, k | k > Longest(ds)
      ensures !RunIn(ds, start, k)
    {
      if RunIn(ds, start, k) {
        LongestAtLeast(ds, start, k);
      }
    }
  }

  lemma DescendingTail(ds: seq<int>)
    requires Descending(ds) && Distinct(ds) && |ds| > 0
    ensures Descending(ds[1..]) && Distinct(ds[1..])
    ensures forall x :: x in ds[1..] ==> x < ds[0]
  {
    forall x | x in ds[1..] ensures x < ds[0] {
      var i :| 0 <= i < |ds| - 1 && ds[1..][i] == x;
      assert ds[i + 1] == x;
    }
  }

  /**
   On newest-first days without repeats, the walk from the newest day covers
   exactly the run of consecutive days ending there: those days are present
   and the day before the run is not.
   */
  lemma {:induction false} WalkRun(ds: seq<int>)
    requires Descending(ds) && Distinct(ds) && |ds| > 0
    ensures RunIn(ds, ds[0] - Walk(ds), Walk(ds) + 1)
    ensures ds[0] - Walk(ds) - 1 !in ds
  {
    if |ds| >= 2 && ds[1] - ds[0] == -1 {
      DescendingTail(ds);
      WalkRun(ds[1..]);
      RunGrows(ds[0], ds[1..], Walk(ds[1..]));
      assert ds == [ds[0]] + ds[1..];
    } else {
      assert |ds| >= 2 ==> ds[1] != ds[0];
      WalkRunStop(ds);
    }
  }

  /** One step of the walk: a run just below `top`, preceded by a gap, grows by `top`. */
  lemma RunGrows(top: int, t: seq<int>, w: nat)
    requires |t| > 0 && t[0] == top - 1
    requires RunIn(t, t[0] - w, w + 1) && t[0] - w - 1 !in t
    ensures RunIn([top] + t, top - (w + 1), w + 2)
    ensures top - (w + 1) - 1 !in [top] + t
  {
    forall d | top - (w + 1) <= d < top - (w + 1) + (w + 2)
      ensures d in [top] + t
    {
      if d != top {
        assert d in t;
      }
    }
  }

  /** Where the walk stops at once, the newest day is a run of one. */
  lemma WalkRunStop(ds: seq<int>)
    requires Descending(ds) && |ds| > 0
    requires |ds| >= 2 ==> ds[1] < ds[0] - 1
    ensures RunIn(ds, ds[0] - Walk(ds), Walk(ds) + 1)
    ensures ds[0] - Walk(ds) - 1 !in ds
  {
    if |ds| >= 2 {
      assert forall x :: x in ds[1..] ==> x <= ds[1] by {
        forall x | x in ds[1..] ensures x <= ds[1] {
          var i :| 0 <= i < |ds| - 1 && ds[1..][i] == x;
          assert ds[i + 1] == x;
        }
      }
      assert ds == [ds[0]] + ds[1..];
    } else {
      assert ds == [ds[0]];
    }
  }
}

=== FILE: timer_circle.dfy ===
/**
 The `MM:SS` text in the middle of the timer circle: whole minutes and the
 leftover seconds, each zero-padded to two digits. Minutes are not capped,
 so a count of 100 minutes or more gives a longer minutes field. The circle
 geometry is not modelled.
 */
module TimerCircle {
  import opened Wrappers
  import opened Digits

  /** The minutes field: `Math.floor(remainingSeconds / 60).toString().padStart(2, '0')`. */
  function MinutesField(remaining: int): (f: string)
    ensures |f| >= 2
  {
    PadStart(IntToString(remaining / 60), 2)
  }

  /** The seconds field: `(remainingSeconds % 60).toString().padStart(2, '0')`. */
  function SecondsField(remaining: int): (f: string)
    ensures |f| >= 2
  {
    PadStart(IntToString(JsRem(remaining, 60)), 2)
  }

  /** The displayed text `${minutes}:${seconds}`. */
  function ClockText(remaining: int): (text: string)
    ensures |text| >= 5
  {
    MinutesField(remaining) + ":" + SecondsField(remaining)
  }

  /** Reads a `MM:SS` text back as a number of seconds. */
  function ParseClock(text: string): Option<int> {
    var k := IndexOf(text, ':');
    if k < 0 then None else ParseFields(text[..k], text[k + 1..])
  }

  /** The minutes digits and the two seconds digits, as a number of seconds. */
  function ParseFields(mm: string, ss: string): Option<int> {
    if 0 < |mm| && AllDigits(mm) && |ss| == 2 && AllDigits(ss)
    then Some(60 * ParseDigits(mm) + ParseDigits(ss))
    else None
  }

  /** For a count that has not gone negative, the fields are digit strings of its minutes and seconds. */
  lemma ClockFields(remaining: int)
    requires remaining >= 0
    ensures AllDigits(MinutesField(remaining)) && ParseDigits(MinutesField(remaining)) == remaining / 60
    ensures AllDigits(SecondsField(remaining)) && |SecondsField(remaining)| == 2
    ensures ParseDigits(SecondsField(remaining)) == remaining % 60 < 60
  {
    var q, r := remaining / 60, remaining % 60;
    assert MinutesField(remaining) == PadStart(NatToString(q), 2);
    assert SecondsField(remaining) == PadStart(NatToString(r), 2);
    PadStartDigits(q, 2);
    PadStartDigits(r, 2);
    assert |SecondsField(remaining)| == 2 by {
      Pow10Values();
      PadStartWidth(r, 2);
    }
  }

  /** A number below 100 as a two-digit field: its tens digit, then its units digit. */
  lemma TwoDigitField(n: nat)
    requires n < 100
    ensures PadStart(NatToString(n), 2) == [DigitChar(n / 10), DigitChar(n % 10)]
  {
    if n < 10 {
      assert Zeros(1) == [DigitChar(0)];
    } else {
      assert NatToString(n / 10) == [DigitChar(n / 10)];
    }
  }

  /** Two digit fields joined by a colon are split at that colon. */
  lemma ParseJoinedFields(mm: string, ss: string)
    requires AllDigits(mm)
    ensures ParseClock(mm + ":" + ss) == ParseFields(mm, ss)
  {
    var text := mm + ":" + ss;
    DigitsHaveNo(mm, ':');
    assert text == mm + [':'] + ss;
    IndexOfJoin(mm, ':', ss);
    assert text[..|mm|] == mm && text[|mm| + 1..] == ss;
  }

  /** Reading the text back gives the count it shows, for every count that has not gone negative. */
  lemma ClockRoundTrip(remaining: int)
    requires remaining >= 0
    ensures ParseClock(ClockText(remaining)) == Some(remaining)
  {
    ClockFields(remaining);
    FieldsReadBack(remaining, MinutesField(remaining), SecondsField(remaining));
  }

  lemma FieldsReadBack(remaining: int, mm: string, ss: string)
    requires 0 < |mm| && AllDigits(mm) && |ss| == 2 && AllDigits(ss)
    requires ParseDigits(mm) == remaining / 60 && ParseDigits(ss) == remaining % 60
    ensures ParseClock(mm + ":" + ss) == Some(remaining)
  {
    ParseJoinedFields(mm, ss);
    assert remaining == 60 * (remaining / 60) + remaining % 60;
  }

  /** Below 100 minutes the text is always five characters, `MM:SS`. */
  lemma ClockWidth(remaining: int)
    requires 0 <= remaining < 6000
    ensures |MinutesField(remaining)| == 2 && |SecondsField(remaining)| == 2
    ensures |ClockText(remaining)| == 5
  {
    Pow10Values();
    PadStartWidth(remaining / 60, 2);
    ClockFields(remaining);
  }

  /** Two-digit minutes and seconds fields joined by a colon compare minutes first, then seconds. */
  lemma {:induction false} JoinedFieldsOrder(ma: string, sa: string, mb: string, sb: string)
    requires |ma| == |mb| == 2 && |sa| == |sb| == 2
    requires AllDigits(ma) && AllDigits(mb) && AllDigits(sa) && AllDigits(sb)
    ensures LexLess(ma + ":" + sa, mb + ":" + sb)
        <==> ParseDigits(ma) < ParseDigits(mb) || (ParseDigits(ma) == ParseDigits(mb) && ParseDigits(sa) < ParseDigits(sb))
  {
    assert ma + ":" + sa == ma + (":" + sa) && mb + ":" + sb == mb + (":" + sb);
    assert LexLess(ma + (":" + sa), mb + (":" + sb))
        <==> LexLess(ma, mb) || (ma == mb && LexLess(":" + sa, ":" + sb)) by {
      LexLessConcat(ma, ":" + sa, mb, ":" + sb);
    }
    assert LexLess(":" + sa, ":" + sb) <==> LexLess(sa, sb) by {
      LexLessConcat(":", sa, ":", sb);
      assert !LexLess(":", ":");
    }
    DigitStringOrder(ma, mb);
    DigitStringOrder(sa, sb);
  }

  lemma MinutesSecondsOrder(x: int, u: int, y: int, v: int)
    requires 0 <= u < 60 && 0 <= v < 60
    ensures x < y || (x == y && u < v) <==> 60 * x + u < 60 * y + v
  {
  }

  /** Below 100 minutes, text order is countdown order: the display sorts like the counts. */
  lemma ClockOrder(a: int, b: int)
    requires 0 <= a < 6000 && 0 <= b < 6000
    ensures LexLess(ClockText(a), ClockText(b)) <==> a < b
  {
    FieldsOrder(a, b);
    assert ClockText(a) == MinutesField(a) + ":" + SecondsField(a);
    assert ClockText(b) == MinutesField(b) + ":" + SecondsField(b);
  }

  lemma FieldsOrder(a: int, b: int)
    requires 0 <= a < 6000 && 0 <= b < 6000
    ensures LexLess(MinutesField(a) + ":" + SecondsField(a), MinutesField(b) + ":" + SecondsField(b)) <==> a < b
  {
    ClockWidth(a);
    ClockWidth(b);
    ClockFields(a);
    ClockFields(b);
    OrderFromFields(a, b, MinutesField(a), SecondsField(a), MinutesField(b), SecondsField(b));
  }

  lemma OrderFromFields(a: int, b: int, ma: string, sa: string, mb: string, sb: string)
    requires |ma| == |mb| == 2 && |sa| == |sb| == 2
    requires AllDigits(ma) && AllDigits(mb) && AllDigits(sa) && AllDigits(sb)
    requires ParseDigits(ma) == a / 60 && ParseDigits(sa) == a % 60
    requires ParseDigits(mb) == b / 60 && ParseDigits(sb) == b % 60
    ensures LexLess(ma + ":" + sa, mb + ":" + sb) <==> a < b
  {
    JoinedFieldsOrder(ma, sa, mb, sb);
    MinutesSecondsOrder(a / 60, a % 60, b / 60, b % 60);
    assert a == 60 * (a / 60) + a % 60 && b == 60 * (b / 60) + b % 60;
  }
}

=== FILE: totals.dfy ===
/**
 The home screen's focus-time figure for a number of seconds, `formatTotal`:
 whole hours when there are any, then the leftover whole minutes, as in
 `1h 25m` or `50m`.
 `ParseTotal` reads such a text back and is the partner the formatter is
 checked against.
 */
module Totals {
  import opened Wrappers
  import opened Digits

  /**
   `formatTotal`: `h = Math.floor(seconds / 3600)` and
   `m = Math.floor((seconds % 3600) / 60)`, with `%` truncating as in
   JavaScript; the floor of a division by a positive number is Dafny's `/`.
   */
  function FormatTotal(seconds: int): (text: string)
    ensures |text| >= 2 && text[|text| - 1] == 'm'
  {
    TotalText(seconds / 3600, JsRem(seconds, 3600) / 60)
  }

  /** `${h}h ${m}m` when there are whole hours, `${m}m` otherwise. */
  function TotalText(h: int, m: int): (text: string)
    ensures |text| >= 2 && text[|text| - 1] == 'm'
  {
    (if h > 0 then IntToString(h) + "h " else "") + IntToString(m) + "m"
  }

  /** Reads `formatTotal`'s text back as seconds. */
  function ParseTotal(text: string): Option<int> {
    if |text| == 0 || text[|text| - 1] != 'm' then None else ParseHoursMinutesText(text[..|text| - 1])
  }

  /** `<h>h <m>` or `<m>`, without the closing `m`, as seconds: split at the first space. */
  function ParseHoursMinutesText(body: string): Option<int> {
    var k := IndexOf(body, ' ');
    if k < 0 then
      if 0 < |body| && AllDigits(body) then Some(60 * ParseDigits(body)) else None
    else ParseHoursField(body[..k], body[k + 1..])
  }

  /** An hours part `<h>h` and a minutes part `<m>`, as seconds. */
  function ParseHoursField(hours: string, minutes: string): Option<int> {
    var n := |hours| - 1;
    if 1 <= n && hours[n] == 'h' && AllDigits(hours[..n]) && 0 < |minutes| && AllDigits(minutes)
    then Some(3600 * ParseDigits(hours[..n]) + 60 * ParseDigits(minutes))
    else None
  }

  /** The hours and minutes of a non-negative total are its whole minutes, split. */
  lemma HoursAndMinutes(seconds: int, h: int, m: int)
    requires seconds >= 0 && h == seconds / 3600 && m == JsRem(seconds, 3600) / 60
    ensures 0 <= m < 60 && 3600 * h + 60 * m == seconds - seconds % 60
  {
    var q := seconds % 3600;
    var r := q % 60;
    assert seconds == 3600 * h + 60 * m + r;
    assert seconds == 60 * (60 * h + m) + r;
  }

  lemma ParseTotalLastM(body: string)
    ensures ParseTotal(body + "m") == ParseHoursMinutesText(body)
  {
    assert (body + "m")[..|body|] == body;
  }

  /** In `<h>h <m>`, the first space is the one after the `h`. */
  lemma HoursBodySplit(hs: string, ms: string)
    requires AllDigits(hs)
    ensures ParseHoursMinutesText(hs + "h " + ms) == ParseHoursField(hs + "h", ms)
  {
    var body := hs + "h " + ms;
    DigitsHaveNo(hs, ' ');
    assert body == (hs + "h") + [' '] + ms;
    IndexOfJoin(hs + "h", ' ', ms);
    assert body[..|hs| + 1] == hs + "h" && body[|hs| + 2..] == ms;
  }

  lemma HoursFieldDigits(hs: string, ms: string)
    requires AllDigits(hs) && |hs| > 0 && AllDigits(ms) && |ms| > 0
    ensures ParseHoursField(hs + "h", ms) == Some(3600 * ParseDigits(hs) + 60 * ParseDigits(ms))
  {
    assert (hs + "h")[..|hs|] == hs;
  }

  /** `<h>h <m>m` with both parts digit strings reads as those hours and minutes. */
  lemma HoursMinutesText(hs: string, ms: string, h: int, m: int)
    requires ReadsAs(hs, h) && ReadsAs(ms, m)
    ensures ParseTotal(hs + "h " + ms + "m") == Some(3600 * h + 60 * m)
  {
    ParseTotalLastM(hs + "h " + ms);
    HoursBodySplit(hs, ms);
    HoursFieldDigits(hs, ms);
  }

  /** `<m>m` with a digit string reads as that many minutes. */
  lemma MinutesText(ms: string, m: int)
    requires ReadsAs(ms, m)
    ensures ParseTotal(ms + "m") == Some(60 * m)
  {
    DigitsHaveNo(ms, ' ');
    ParseTotalLastM(ms);
  }

  /** With whole hours, the text is the hours' digits, `h `, the minutes' digits and `m`. */
  lemma TotalTextHours(h: int, m: nat)
    requires h > 0
    ensures TotalText(h, m) == NatToString(h) + "h " + NatToString(m) + "m"
  {
  }

  /** Without whole hours, the text is the minutes' digits and `m`. */
  lemma TotalTextMinutes(h: int, m: nat)
    requires h <= 0
    ensures TotalText(h, m) == NatToString(m) + "m"
  {
    assert "" + NatToString(m) == NatToString(m);
  }

  lemma ReadTotalTextMinutes(h: int, m: nat)
    requires h <= 0
    ensures ParseTotal(TotalText(h, m)) == ParseTotal(NatToString(m) + "m")
  {
    TotalTextMinutes(h, m);
  }

  /** The text of `h` hours and `m` minutes reads back as that many seconds. */
  lemma TotalTextReads(h: nat, m: nat, v: int)
    requires v == 3600 * h + 60 * m
    ensures ParseTotal(TotalText(h, m)) == Some(v)
  {
    if h > 0 {
      HoursTextReads(h, m, v);
    } else {
      MinutesTextReads(h, m, v);
    }
  }

  lemma HoursTextReads(h: nat, m: nat, v: int)
    requires h > 0 && v == 3600 * h + 60 * m
    ensures ParseTotal(TotalText(h, m)) == Some(v)
  {
    var hs, ms := NatToString(h), NatToString(m);
    assert ReadsAs(hs, h) && ReadsAs(ms, m) by { NatToStringReads(h); NatToStringReads(m); }
    assert TotalText(h, m) == hs + "h " + ms + "m" by { TotalTextHours(h, m); }
    assert ParseTotal(hs + "h " + ms + "m") == Some(v) by { HoursMinutesText(hs, ms, h, m); }
  }

  lemma MinutesTextReads(h: nat, m: nat, v: int)
    requires h == 0 && v == 60 * m
    ensures ParseTotal(TotalText(h, m)) == Some(v)
  {
    NatToStringReads(m);
    MinutesText(NatToString(m), m);
    ReadTotalTextMinutes(h, m);
  }

  /**
   For a non-negative total, reading `formatTotal`'s text back gives the total
   rounded down to whole minutes: the text loses only the odd seconds.
   */
  lemma FormatTotalRoundTrip(seconds: int)
    requires seconds >= 0
    ensures ParseTotal(FormatTotal(seconds)) == Some(seconds - seconds % 60)
  {
    var h, m := seconds / 3600, JsRem(seconds, 3600) / 60;
    assert h >= 0 && m >= 0 && 3600 * h + 60 * m == seconds - seconds % 60 by {
      HoursAndMinutes(seconds, h, m);
    }
    assert ParseTotal(TotalText(h, m)) == Some(seconds - seconds % 60) by {
      TotalTextReads(h, m, seconds - seconds % 60);
    }
  }

  /** The text has a space, between hours and minutes, exactly when the total is at least an hour. */
  lemma FormatTotalHours(seconds: int)
    ensures ' ' in FormatTotal(seconds) <==> seconds >= 3600
  {
    var h, m := seconds / 3600, JsRem(seconds, 3600) / 60;
    var hours := if h > 0 then IntToString(h) + "h " else "";
    var text := hours + IntToString(m) + "m";
    assert FormatTotal(seconds) == text;
    assert ' ' !in IntToString(m) by {
      DigitsHaveNo(NatToString(if m < 0 then -m else m), ' ');
    }
    if h > 0 {
      assert text[|IntToString(h)| + 1] == ' ';
    } else {
      assert text == IntToString(m) + "m";
    }
  }

  /** The minutes part is always below an hour, and for a total under an hour it is the only part. */
  lemma FormatTotalShape(seconds: int)
    requires seconds >= 0
    ensures seconds < 3600 ==> FormatTotal(seconds) == NatToString(seconds / 60) + "m"
    ensures 0 <= JsRem(seconds, 3600) / 60 < 60
  {
    if seconds < 3600 {
      assert "" + NatToString(seconds / 60) == NatToString(seconds / 60);
    }
  }

  lemma FormatTotalExamples()
    ensures FormatTotal(0) == "0m"
    ensures FormatTotal(3000) == "50m"
    ensures FormatTotal(3600 + 25 * 60 + 59) == "1h 25m"
  {
    MinutesOnlyExample();
    HoursExample();
  }

  lemma MinutesOnlyExample()
    ensures FormatTotal(3000) == "50m"
  {
    assert NatToString(50) == "50";
  }

  lemma HoursExample()
    ensures FormatTotal(3600 + 25 * 60 + 59) == "1h 25m"
  {
    assert JsRem(5159, 3600) == 1559;
    assert NatToString(25) == "25";
    assert NatToString(1) == "1";
  }
}

=== FILE: wrappers.dfy ===
/** Failure-compatible optional value, used wherever the app answers "nothing". */
module Wrappers {

  datatype Option<+T> = None | Some(value: T)

}
